=== FILE: README.md ===
# PeerStreamer chunkiser wire format, modelled in Dafny

This project models the chunk format that PeerStreamer's libav-based chunkiser
writes and its player reads. It covers three parts:

- **The codecs of `payload.h`.** These are the stream header at the front of
  every chunk: 10 bytes for video and 7 for audio, with the frame count in the
  last byte. They also cover the 8-byte per-frame header (a 24-bit size, a
  32-bit dts and a one-byte pts - dts delta, where 255 means "no pts"), and
  the 3-byte per-packet headers of the UDP and RTP chunkisers.
- **The producer, `input-stream-avf.c`.** At open time it picks the first video
  and first audio stream, filtered by the `media` key, and reads the
  `loop`/`vframes`/`aframes` keys. It maps libav codec ids to one-byte wire
  codes. Its header fills write the stream headers, with the frame-rate
  fallback and scaling. It derives the 32-bit frame timestamps. `avf_chunkise`
  appends each demuxed packet to its media type's accumulator and seals the
  chunk once `frames_max` frames are in. Rewinding moves `base_ts` to
  `last_ts`.
- **The consumer, `output-stream-play.c`.** `play_init` chooses the media to
  play. `play_write` classifies a chunk by its first byte. While the session
  is not up, `format_gen` records the stream header of each media type and
  opens the decoders once the seen media equal the selected ones. After that,
  `play_write` parses the chunk's frames and rebuilds 64-bit timestamps from
  their low 32 bits, then queues one packet per frame on the video or audio
  FIFO. `synchronise` adapts the playout delay after a streak of late frames.

How the C is represented:

- **Bytes** are integers in [0, 256).
- **Buffers** are sequences. An in-place store is a function returning the
  new sequence, and its contract says which bytes are left alone.
- **Bitmasks.** The producer's `streams` mask is a set of stream indices. The
  consumer's media bits 0x01 and 0x02 are a set of media types.
- **`int_coding.h`** (`int_cpy`, `int_rcpy`, `int16_cpy`, `int16_rcpy`) is not
  part of this model. It is taken to be big-endian, keeping the value modulo
  2^32 or 2^16 on a store and reading it back unsigned.
- **C integer behaviour** is written out where it matters: the `int32_t`
  timestamps of `frame_header_fill` wrap modulo 2^32, a `uint8_t` store keeps
  the low 8 bits, and C's `/` truncates towards zero.
- **Parameters.** Everything the media library and the operating system
  decide is a parameter. This covers the result of `av_read_frame`, the
  bitstream filter, `av_rescale_q`, `av_seek_frame`, whether a decoder can be
  opened, and the reading of `av_gettime`.

The model keeps the source's behaviour, including where producer and consumer
disagree. Several such disagreements are stated as lemmas:

- The producer interleaves each frame header with its payload, but the
  consumer reads all frame headers first. A chunk of one frame round-trips
  (`EndToEnd.OneFrameChunkDelivered`, the default `vframes`/`aframes` of 1).
  Two frames are misread (`EndToEnd.TwoFrameLayoutMisread`).
- First byte 127 is audio to `play_write` but video to `format_gen`.
- A chunk of an unselected media type that arrives before the session is up
  blocks the session for good.
- The timestamp extension overshoots once the history has passed 2^32: a value
  in the same epoch as the previous one comes back one epoch too high
  (`Timestamps.OvershootsByOneEpoch`).
- A frame-rate numerator of exactly 65536 is written as 0.
- The frame-rate fallback in the stream header and the one in the time base
  test different fields.

## Model

| member | source | states |
|---|---|---|
| Payload.FrameHeaderBytes | src/Chunkiser/payload.h:66-77 | a frame header takes exactly FRAME_HEADER_SIZE = 8 bytes |
| Payload.FrameHeaderParse | src/Chunkiser/payload.h:13-30 | the size is below 2^24 and the dts below 2^32; the pts is -1 exactly when the delta byte is 255, otherwise it lies 0..254 above the dts |
| Payload.FrameHeaderWrite | src/Chunkiser/payload.h:66-77 | only the 8 bytes at the offset change; parsing them gives the size modulo 2^24, the dts modulo 2^32 and the dts plus the delta modulo 256, or -1 when the pts is absent or the delta is 255 modulo 256 |
| Payload.ParseAt | src/Chunkiser/payload.h:13-30 | the parse of a frame header depends only on its 8 bytes, wherever they sit |
| Payload.ParseFrameHeaderBytes | src/Chunkiser/payload.h:66-77 | reading back the 8 stored bytes gives the size modulo 2^24, the wire pts and the dts modulo 2^32 |
| Payload.Size24RoundTrip | src/Chunkiser/payload.h:20-23 | the three size bytes read back big-endian give the size modulo 2^24 |
| Payload.FrameHeaderRoundTrip | src/Chunkiser/payload.h:66-77 | a size below 2^24, a non-negative dts and a pts-dts delta in 0..254 are read back exactly |
| Payload.DeltaAmbiguity | src/Chunkiser/payload.h:72-76 | a present pts whose delta is 255 modulo 256 is stored as the same byte as "no pts" and read back as absent |
| Payload.AudioPayloadHeaderParse | src/Chunkiser/payload.h:32-38 | the codec is byte 0; sample rate and frame size are 16-bit values |
| Payload.AudioPayloadHeaderWrite | src/Chunkiser/payload.h:49-55 | bytes from 6 on (the frame count and the frames) are untouched; the parse returns the codec, channels modulo 256 and both rates modulo 2^16 |
| Payload.VideoPayloadHeaderParse | src/Chunkiser/payload.h:40-47 | the codec is byte 0; width, height and both frame-rate terms are 16-bit values |
| Payload.VideoPayloadHeaderWrite | src/Chunkiser/payload.h:57-64 | bytes from 9 on are untouched; the parse returns the codec and the four fields modulo 2^16 |
| Payload.UdpPayloadHeaderParse | src/Chunkiser/payload.h:79-83 | the size is a 16-bit value and the stream is byte 2 |
| Payload.UdpPayloadHeaderWrite | src/Chunkiser/payload.h:85-89 | only the first 3 bytes change; the parse returns the size modulo 2^16 and the stream byte |
| Payload.RtpPayloadPerPktHeaderParse | src/Chunkiser/payload.h:111-115 | the size is a 16-bit value and the stream is byte 2 |
| Payload.RtpPayloadPerPktHeaderSet | src/Chunkiser/payload.h:106-109 | only the first 3 bytes change; the `uint16_t` size and the stream byte are read back exactly |
| IntCoding.IntRoundTrip | src/Chunkiser/payload.h:24 | `int_rcpy` of what `int_cpy` stored is the value modulo 2^32 |
| IntCoding.Int16RoundTrip | src/Chunkiser/payload.h:53-54 | `int16_rcpy` of what `int16_cpy` stored is the value modulo 2^16 |
| Codecs.CodecType | src/Chunkiser/input-stream-avf.c:42-87 | a codec has a wire code in 1..13 exactly when it is one of the sixteen video codecs, and in 129..132 exactly when it is one of the audio codecs; every other codec gets 0 |
| Codecs.LibavCodecId | src/Chunkiser/output-stream-play.c:79-120 | a byte outside the known codes maps to "no codec"; codes 1..13 map to video codecs and 129..132 to audio codecs |
| Codecs.WireCodeRoundTrip | src/Chunkiser/output-stream-play.c:79-120 | a known wire code survives the player's mapping and the chunkiser's mapping back; an unknown one becomes 0 |
| Codecs.CodecRoundTrip | src/Chunkiser/input-stream-avf.c:42-87 | a video or audio codec's wire code maps back to a codec of the same media type with the same wire code |
| Codecs.LibavCodecIdInjective | src/Chunkiser/output-stream-play.c:81-115 | distinct known wire codes give distinct codec ids |
| Producer.FirstIndex | src/Chunkiser/input-stream-avf.c:211-226 | the index found holds the media type and no earlier index does; None when no stream has it |
| Producer.SelectStreams | src/Chunkiser/input-stream-avf.c:211-226 | the mask holds at most one video and one audio index, each the first of its type; `media=audio` selects no video and `media=video` no audio; otherwise a type that is present is selected |
| Producer.InitialCounts | src/Chunkiser/input-stream-avf.c:195-206 | the `media` key disables video exactly when it is `audio` and audio exactly when it is `video`; `av`, any other value or no key disables nothing |
| Producer.PickedSnoc | src/Chunkiser/input-stream-avf.c:212-222 | one more stream adds its index exactly when it is the first of a type whose counter starts at 0 |
| Producer.SelectionShape | src/Chunkiser/input-stream-avf.c:191-226 | the same selection facts, for the closed-form selection |
| Producer.Open | src/Chunkiser/input-stream-avf.c:176-209 | the context is valid and its accumulators empty; the offsets are 0; `loop`, `vframes` and `aframes` come from the configuration or default to 0, 1 and 1 |
| Producer.VideoRate | src/Chunkiser/input-stream-avf.c:98-108 | the rate is `avg_frame_rate`, or `r_frame_rate` when the average's numerator is 0; a numerator above 2^16 is divided by 1000, rounding towards zero, and so is the denominator |
| Producer.RateAt65536WrapsToZero | src/Chunkiser/input-stream-avf.c:105-109 | a numerator of exactly 65536 escapes the scaling and reaches the consumer as 0 |
| Producer.StreamHeaderBytes | src/Chunkiser/input-stream-avf.c:89-110 | the stream header is one byte shorter than the header size and begins with the codec's wire code |
| Producer.VideoHeaderFill | src/Chunkiser/input-stream-avf.c:94-110 | the frame-count byte and everything after it are kept; the consumer parses the wire code, width and height and the chosen rate, each modulo 2^16 |
| Producer.AudioHeaderFill | src/Chunkiser/input-stream-avf.c:89-92 | the frame-count byte and everything after it are kept; the consumer parses the wire code, channels modulo 256 and the rates modulo 2^16 |
| Producer.HeaderFill | src/Chunkiser/input-stream-avf.c:285-299 | the buffer becomes the media type's stream header followed by the untouched rest |
| Producer.GetNewTb | src/Chunkiser/input-stream-avf.c:260-283 | video: the inverse of `avg_frame_rate`, or of `r_frame_rate` when the average's denominator is 0; audio: frame size over sample rate; for a non-zero average rate of at most 2^16, the inverse of `VideoRate`, the rate `video_header_fill` passes to the header write (the header itself carries it modulo 2^16, so 65536 arrives as 0) |
| EndToEnd.VideoTimeBaseAgrees | src/Chunkiser/input-stream-avf.c:265-272 | the time base the player derives from the first video chunk's header is the chunkiser's `get_new_tb`, for a non-zero average rate below 2^16 |
| EndToEnd.AudioTimeBaseAgrees | src/Chunkiser/input-stream-avf.c:273-275 | the time base the player derives from the first audio chunk's header is the chunkiser's `get_new_tb`, for a frame size and sample rate below 2^16 |
| Producer.NewTbFallbackDiffers | src/Chunkiser/input-stream-avf.c:266-270 | an average rate of 0/1 puts `r_frame_rate` in the header but gives a 1/0 time base |
| Producer.FrameTimestamps | src/Chunkiser/input-stream-avf.c:112-132 | a missing pts becomes -1 and a missing dts 0; otherwise each is the rescaled timestamp plus the rescaled `base_ts`, modulo 2^32 |
| Producer.Shift32 | src/Chunkiser/input-stream-avf.c:117-118 | the `int32_t` sum is congruent to the exact sum modulo 2^32 |
| Producer.InputStreamRewind | src/Chunkiser/input-stream-avf.c:134-142 | `base_ts` jumps to `last_ts` whatever the seek returns; `last_ts`, both accumulators, the stream table, the selection and the configuration stay; a valid context stays valid; the seek result is passed on |
| Producer.HasBitstreamFilter | src/Chunkiser/input-stream-avf.c:227-233 | only video codecs get a bitstream filter (`dump_extra` for MPEG-4, `h264_mp4toannexb` for H.264) |
| Producer.FilteredCodes | src/Chunkiser/input-stream-avf.c:227-233 | a filter is installed exactly for the codecs with wire codes 5 (MPEG-4) and 9 (H.264) |
| Producer.Filtered | src/Chunkiser/input-stream-avf.c:354-376 | a stream without a filter (every audio stream among them) passes its payload through unchanged; a filtered stream gets the filter's output, None when the filter fails |
| Producer.RewindContinuesTimestamps | src/Chunkiser/input-stream-avf.c:332-339 | after a read failure with `loop` set and a successful seek, size 0 and `last_ts` are reported, and the next packet of a selected stream that passes its filter is stamped with its rescaled dts plus the `last_ts` from before the rewind |
| Producer.Append | src/Chunkiser/input-stream-avf.c:397-418 | one more frame is counted; the buffer grows by 8 plus the payload length, and the first frame also reserves room for the stream header |
| Producer.AppendData | src/Chunkiser/input-stream-avf.c:397-417 | the new buffer is the old one (or the header room), then the frame header, then the payload |
| Producer.AppendExtendsLayout | src/Chunkiser/input-stream-avf.c:397-418 | an accumulator holding frames fs in the interleaved layout holds fs plus the new frame after an append |
| Producer.AccumulatedFrameAt | src/Chunkiser/input-stream-avf.c:397-417 | frame k's header sits at h + sum over j < k of (8 + size_j), with its payload right after; the buffer is h + sum of (8 + size_j) long |
| Producer.Seal | src/Chunkiser/input-stream-avf.c:427-430 | the sealed chunk keeps the buffer's length: stream header, the frame count modulo 256, then the frames |
| Producer.SealedChunkLayout | src/Chunkiser/input-stream-avf.c:427-430 | a sealed chunk is the stream header, the frame count and the interleaved frames |
| Producer.OneFrameSeal | src/Chunkiser/input-stream-avf.c:397-430 | sealing one appended frame gives the stream header, count 1, the frame header and the payload |
| Producer.Store | src/Chunkiser/input-stream-avf.c:397-440 | `last_ts` and `*ts` are the frame's timestamp; the other media's accumulator and the setup are untouched; at `frames_max` a chunk of the grown size comes out with the count in the header's last byte and the accumulator is emptied; otherwise nothing is returned and one more frame is counted |
| Producer.StoreKeepsLayout | src/Chunkiser/input-stream-avf.c:397-440 | below `frames_max` the accumulator holds the old frames and then the new one, header then payload; at `frames_max` the chunk is the stream header, the frame count and every frame in arrival order |
| Producer.Emit | src/Chunkiser/input-stream-avf.c:420-440 | the timestamp is recorded; at `frames_max` the returned chunk is the sealed accumulator, its length is the size, the count is in the header's last byte and the accumulator is emptied; otherwise size 0 and the frame is kept |
| Producer.Accumulate | src/Chunkiser/input-stream-avf.c:378-440 | a packet of a selected stream leaves the context valid and the other media type's accumulator alone; a returned chunk is as long as the reported size |
| Producer.Chunkise | src/Chunkiser/input-stream-avf.c:319-441 | a read failure rewinds when looping and reports size 0 only if looping and the seek succeeded, else -1; an unselected stream changes nothing and reports size 0 with `last_ts`; a failing bitstream filter drops the packet with size 0 and changes nothing; the stream table, selection and configuration never change; a packet touches only its own media type's accumulator; a chunk's size is its length |
| Producer.ChunkiseTimestamp | src/Chunkiser/input-stream-avf.c:420-424 | a filtered packet of a selected stream keeps `base_ts` and is stamped with its dts rescaled to microseconds plus `base_ts`, which also becomes `last_ts` |
| Producer.ChunkiseSeals | src/Chunkiser/input-stream-avf.c:427-434 | the packet that brings its accumulator to `frames_max` comes out in a chunk whose header ends with `frames_max` modulo 256, and the accumulator is emptied |
| Producer.ChunkiseCounts | src/Chunkiser/input-stream-avf.c:417-438 | any other filtered packet returns no chunk and size 0 and adds one frame to its accumulator's count |
| Producer.OneFrameChunk | src/Chunkiser/input-stream-avf.c:397-434 | with `frames_max` = 1 a packet comes out at once as stream header, count 1, frame header and payload |
| ChunkLayout.InterleaveSnoc | src/Chunkiser/input-stream-avf.c:414-417 | the interleaved layout of one more frame is the old layout, then that frame's header and payload |
| ChunkLayout.InterleaveSuffix | src/Chunkiser/input-stream-avf.c:414-417 | from frame k's offset on, the layout is the interleaving of frames k onwards |
| ChunkLayout.InterleaveLength | src/Chunkiser/input-stream-avf.c:397-404 | the layout is the sum of 8 + size over all frames long |
| ChunkLayout.FrameAt | src/Chunkiser/input-stream-avf.c:414-417 | in the producer's layout, frame k's header is at its offset and its payload right after |
| ChunkLayout.OneFrameLayoutsAgree | src/Chunkiser/output-stream-play.c:786-787 | for a single frame the interleaved and the headers-first layouts are the same bytes |
| Timestamps.Extend | src/Chunkiser/output-stream-play.c:808 | a value more than 2^31 - 1 below the previous one gets one more 2^32 epoch than the previous one; otherwise it gets the previous one's epoch |
| Timestamps.ExtendKeepsLowBits | src/Chunkiser/output-stream-play.c:808 | the extended value keeps the wire value's low 32 bits |
| Timestamps.ExtendNonNegative | src/Chunkiser/output-stream-play.c:808 | with a non-negative history the extension never goes below the wire value |
| Timestamps.ExtendRecovers | src/Chunkiser/output-stream-play.c:802-809 | before the first wrap, a timestamp within 2^31 - 1 of the previous one is recovered exactly from its low 32 bits |
| Timestamps.WrapIncreases | src/Chunkiser/output-stream-play.c:808 | before the first wrap, a value taken as wrapped comes out above the previous one |
| Timestamps.OvershootAfterWrap | src/Chunkiser/output-stream-play.c:802 | after the first wrap the rule adds a second epoch: previous 2^32 + 5, true 2^32 + 10, result 2^33 + 10 |
| Timestamps.OvershootsByOneEpoch | src/Chunkiser/output-stream-play.c:802-808 | once the history is past 2^32, a true value from the previous one up to 2^31 - 1 above it, in the same epoch, comes back exactly 2^32 too high |
| PacketQueue.Empty | src/Chunkiser/output-stream-play.c:716 | the zeroed queue is empty and its counter agrees |
| PacketQueue.Enqueue | src/Chunkiser/output-stream-play.c:137-157 | the packet goes after every queued one, the old contents are kept and the counter grows by one |
| PacketQueue.Dequeue | src/Chunkiser/output-stream-play.c:160-177 | a non-empty queue hands out its head and keeps the rest in order, with the counter one lower; an empty queue is unchanged and yields no packet |
| PacketQueue.EnqueueAllAppends | src/Chunkiser/output-stream-play.c:137-157 | enqueueing a sequence appends it in order and counts it |
| PacketQueue.DequeueNPrefix | src/Chunkiser/output-stream-play.c:160-177 | n dequeues hand out the first n queued packets in order |
| PacketQueue.FifoOrder | src/Chunkiser/output-stream-play.c:137-177 | after enqueueing xs, dequeueing returns the old contents and then xs, first in first out |
| PacketQueue.Drain | src/Chunkiser/output-stream-play.c:449-453 | dequeueing while the counter is non-zero returns every queued packet in order and leaves the queue empty |
| Playout.Synchronise | src/Chunkiser/output-stream-play.c:337-362 | `difft` is the frame's deadline minus now; an on-time frame resets the streak; a late frame extends it and lowers the worst lateness; the delay grows, by the worst lateness, exactly on the `cLimit`-th late frame in a row; the invariant is kept |
| Playout.Run | src/Chunkiser/output-stream-play.c:337-356 | over any sequence of frames the controller's invariant holds and `cLimit` stays fixed |
| Playout.MinSlack | src/Chunkiser/output-stream-play.c:343-347 | the result is at most the start value and at most every tick's slack |
| Playout.LateStreak | src/Chunkiser/output-stream-play.c:343-347 | a streak of late frames below the limit leaves the delay alone, adds its length to the count and lowers the worst lateness to the streak's minimum |
| Playout.LimitRaisesDelay | src/Chunkiser/output-stream-play.c:343-356 | from a reset controller, `cLimit` late frames raise the delay by exactly the worst lateness among them and reset the counters |
| Playout.DelayNeverShrinks | src/Chunkiser/output-stream-play.c:352-356 | over any sequence of frames the playout delay never decreases |
| Consumer.PlayInit | src/Chunkiser/output-stream-play.c:706-750 | the session plays video unless `media` is `audio` (audio only) or `av` (both); it is not up, has seen nothing, has empty queues, a 1 s delay, pts0 -1 and a late limit of 30 |
| Consumer.Classify | src/Chunkiser/output-stream-play.c:758-767 | first byte 0 is refused; below 127 is video with a 10-byte header; 127 and above is audio with a 7-byte header |
| Consumer.FormatGenMedia | src/Chunkiser/output-stream-play.c:610-620 | `format_gen` takes a first byte below 128 for video and above 128 for audio, and 128 for neither |
| Consumer.RecordVideo | src/Chunkiser/output-stream-play.c:610-619 | sets the video bit and changes only the video fields: the codec carries the chunk's wire code (0 when unknown), width and height are the header's, and the time base is the inverse of the header's frame rate |
| Consumer.RecordAudio | src/Chunkiser/output-stream-play.c:620-632 | sets the audio bit and changes only the audio fields: the codec carries the chunk's wire code (0 when unknown), channels, rate and frame size are the header's, and the time base is frame size over sample rate |
| Consumer.Record | src/Chunkiser/output-stream-play.c:605-632 | a chunk of a media type not yet seen sets its bit and records its header; byte 128, or a type already seen, records nothing; None only when the header would be read past the chunk |
| Consumer.Open | src/Chunkiser/output-stream-play.c:634-701 | the session comes up exactly when the seen media equal the selected ones and each played media's decoder opens; coming up resets both timestamp histories to 0 |
| Consumer.FormatGen | src/Chunkiser/output-stream-play.c:605-704 | the seen media grow by the chunk's media bit and the selection, the clock, the up flag and both packet queues stay; when the session comes up, the seen media equal the selected ones and both timestamp histories are 0 |
| Consumer.HeadersFrom | src/Chunkiser/output-stream-play.c:788-794 | at most the announced number of headers, each within the ranges the frame-header parse guarantees |
| Consumer.SliceFrom | src/Chunkiser/output-stream-play.c:811-815 | at most one payload per header, each exactly as long as its header's size |
| Consumer.ParseFrames | src/Chunkiser/output-stream-play.c:786-815 | at most the announced number of frames, each payload as long as its header says |
| Consumer.HeaderAt | src/Chunkiser/output-stream-play.c:793-794 | header k is read at q + 8k and fits in the chunk |
| Consumer.HeadersStop | src/Chunkiser/output-stream-play.c:788-794 | the headers run short only where the next one would extend past the chunk |
| Consumer.PayloadAt | src/Chunkiser/output-stream-play.c:812-815 | payload k starts right after the payloads before it |
| Consumer.SliceStops | src/Chunkiser/output-stream-play.c:812-815 | the payloads run short only where the next one would extend past the chunk |
| Consumer.ParsedFramesAt | src/Chunkiser/output-stream-play.c:786-815 | frame k's header is read at h + 8k and its payload follows the earlier payloads, the first starting at h + 8n |
| Consumer.ParseFramesStop | src/Chunkiser/output-stream-play.c:786-815 | fewer frames than announced come back only when the next header or payload would extend past the chunk |
| Consumer.StopInPayload | src/Chunkiser/output-stream-play.c:811-815 | a parse that read more headers than frames it kept stopped at a payload that does not fit |
| Consumer.StopInHeaders | src/Chunkiser/output-stream-play.c:788-794 | a parse that kept every header it read, but fewer than announced, stopped at a header that does not fit |
| Consumer.PacketOf | src/Chunkiser/output-stream-play.c:799-815 | the packet carries the payload and the routed stream index; an absent pts stays absent; both timestamps are extended against the shared history and keep their low 32 bits |
| Consumer.DeliverOne | src/Chunkiser/output-stream-play.c:799-827 | the packet is enqueued on the routed queue and the other queue is untouched; `prev_dts` becomes the extended dts; `prev_pts` becomes the extended pts, or stays when the pts is absent |
| Consumer.DeliverAll | src/Chunkiser/output-stream-play.c:788-828 | one packet per frame is appended to the routed queue and counted, the old contents are kept and the other queue is untouched |
| Consumer.DeliveredAt | src/Chunkiser/output-stream-play.c:788-828 | the k-th appended packet carries frame k |
| Consumer.DeliverAllCarries | src/Chunkiser/output-stream-play.c:788-828 | every appended packet carries its frame, in frame order |
| Consumer.Start | src/Chunkiser/output-stream-play.c:776-778 | the session is marked up and only `t0` may change: an unset `t0` (0) takes the clock reading and a set one is kept |
| Consumer.Frames | src/Chunkiser/output-stream-play.c:782-828 | a media type not played changes nothing; otherwise the announced frames, counted in the stream header's last byte, are delivered in order; the session invariant is kept |
| Consumer.PlayWrite | src/Chunkiser/output-stream-play.c:752-829 | a first byte 0 changes nothing; the session never goes down and nothing is queued before it is up; on a running session an unplayed media type changes nothing; of the clock only `t0` changes, once set it is never changed, and when the session comes up an unset `t0` takes the clock reading; the invariant is kept |
| Consumer.Admit | src/Chunkiser/output-stream-play.c:769-781 | before the session is up, the seen media only grow, the selection stays, and nothing is queued and the clock is untouched unless the session comes up, in which case only an unset `t0` changes, to the clock reading; the admitting chunk's frames are then queued (see Consumer.AdmittingChunkQueued) |
| Consumer.ClassifyAgreesWithCodecTable | src/Chunkiser/output-stream-play.c:758-767 | the wire code of every video codec is classified video, and every audio one audio, by both `play_write` and `format_gen` |
| Consumer.BoundaryCodesDisagree | src/Chunkiser/output-stream-play.c:761 | byte 127 is audio to `play_write` but video to `format_gen`; byte 128 is audio to one and neither to the other |
| Consumer.StrayBitBlocksForever | src/Chunkiser/output-stream-play.c:610-634 | once a media bit outside the selection is recorded, the session never comes up and nothing is queued |
| Consumer.AudioFirstBlocksVideoSession | src/Chunkiser/output-stream-play.c:620-634 | a default (video-only) session whose first chunk is audio records the audio bit and is blocked |
| Consumer.UnplayedMediaIgnored | src/Chunkiser/output-stream-play.c:782-784 | on a running session a chunk of a media type not played changes nothing |
| Consumer.AudioOnlyUsesVideoQueue | src/Chunkiser/output-stream-play.c:799 | in an audio-only session audio packets get stream index 0 and go to the video queue |
| Consumer.QueueRouting | src/Chunkiser/output-stream-play.c:799 | on a running session a chunk of a played media type goes to the audio queue exactly when it is audio and both media are played; everything else goes to the video queue |
| Consumer.PlayWriteQueuesFrames | src/Chunkiser/output-stream-play.c:786-828 | on a running session a chunk of a played type appends one packet per parsed frame, in order, to its queue and leaves the other queue alone |
| Consumer.AdmittingChunkQueued | src/Chunkiser/output-stream-play.c:769-828 | the chunk that brings the session up is not dropped: the session starts and that chunk's frames are appended, one packet per parsed frame and in order, to the queue its media type is routed to by the selection, and the other queue is left alone |
| EndToEnd.OneFrameParsesBack | src/Chunkiser/output-stream-play.c:786-815 | the consumer reads a one-frame producer chunk back as the size, the wire pts, the dts modulo 2^32 and the payload |
| EndToEnd.ParseOneFrameChunk | src/Chunkiser/output-stream-play.c:786-815 | any 8 header bytes whose size matches the payload are read back as that header and payload |
| EndToEnd.ParseOne | src/Chunkiser/output-stream-play.c:788-815 | with one frame, the header at q and the payload right behind it are read when both fit |
| EndToEnd.UnknownCodecChunkRefused | src/Chunkiser/output-stream-play.c:758-760 | a stream whose codec has no wire code produces chunks beginning with 0, which the consumer drops |
| EndToEnd.KnownCodecChunkClassified | src/Chunkiser/output-stream-play.c:761-767 | a video (audio) stream with a video (audio) codec yields chunks the consumer files under that media type and header size |
| EndToEnd.OneFrameChunkDelivered | src/Chunkiser/output-stream-play.c:786-828 | a one-frame chunk from `avf_chunkise` given to a running player of its media type queues exactly one packet, carrying the payload and timestamps whose low 32 bits are the producer's |
| EndToEnd.SmallFrameHeader | src/Chunkiser/payload.h:68-70 | a size below 2^24 passes through the frame header unchanged |
| EndToEnd.OneFrameBytesDelivered | src/Chunkiser/output-stream-play.c:786-828 | a running player queues one packet for a one-frame chunk whose header's size matches its payload |
| EndToEnd.VideoHeaderRecorded | src/Chunkiser/output-stream-play.c:610-619 | the first video chunk tells `format_gen` a codec with the producer's wire code, and the frame size and period modulo 2^16 |
| EndToEnd.AudioHeaderRecorded | src/Chunkiser/output-stream-play.c:620-632 | the first audio chunk tells `format_gen` a codec with the producer's wire code, channels modulo 256 and the rates modulo 2^16 |
| EndToEnd.HeadersOfTwo | src/Chunkiser/output-stream-play.c:788-794 | with two frames the headers are read at q and q + 8 |
| EndToEnd.SliceOfTwo | src/Chunkiser/output-stream-play.c:811-815 | with two frames either both payloads fit, only the first does, or none |
| EndToEnd.TwoFrameLayoutMisread | src/Chunkiser/output-stream-play.c:786-815 | two interleaved one-byte frames come back as a single frame whose payload is a header byte, not the producer's payload |
| EndToEnd.InterleavedPairMisread | src/Chunkiser/output-stream-play.c:786-815 | whenever the payload byte and the next seven header bytes announce more than one byte, the interleaved pair is misread |
| EndToEnd.MisreadHeaderSize | src/Chunkiser/payload.h:20-23 | the header read from the misplaced bytes announces a 458752-byte payload |
| EndToEnd.TwoFrameGroupedReadBack | src/Chunkiser/output-stream-play.c:786-815 | the same two frames in the headers-first layout are read back intact |

## Left out

- The `#if 0` block of input-stream-avf.c (443-527): it is never compiled.
- ALSA, GTK and window handling, the video and audio threads, their decoding
  and mutexes and condition variables, `frame_display`, `usleep`, and
  `play_close`/`avf_close`. These are device I/O and concurrency. The threads'
  use of the queues is covered by `PacketQueue`.
- Memory allocation: `malloc`/`realloc` failure in `avf_chunkise` (size -1),
  `enqueue` failure, and `malloc` in `avf_open`/`play_init`. The model's
  allocation always succeeds.
- `avformat_open_input`, `avformat_find_stream_info`, the grapes
  configuration parser, `av_dump_format`, `format_init` and
  `avformat_new_stream`. Configuration arrives already parsed, as optional
  values.
- `avf_open`'s `*period` (an `av_rescale` of the video frame rate), and the
  `bsf` array bound of MAX_STREAMS = 20.
- Producer.Chunkise: stream indices of 64 and above, where `1ULL << i` is
  undefined, are treated as ordinary indices.
- Producer.Chunkise: `av_rescale_q` is a parameter, and the 64-bit `*ts`,
  `last_ts` and `base_ts` are unbounded integers.
- Producer.Chunkise: requires that selected streams are audio or video. The
  `exit(-1)` branches of `get_new_tb`, `header_fill`, `get_header_size` and the
  media switch cannot be reached from `avf_open`'s selection, so they are not
  modelled.
- Producer.Accumulate: its own contract states validity, the other
  accumulator and the size. The timestamp, sealing and count facts are stated
  on Producer.Store and Producer.Emit, which it calls, and for whole calls of
  `avf_chunkise` on Producer.ChunkiseTimestamp, Producer.ChunkiseSeals and
  Producer.ChunkiseCounts.
- Consumer.PlayWrite: the C never compares a chunk's header size or frame
  count with `size`. Where it would read past the chunk, the model drops the
  chunk (empty or short header) or stops the frame loop (Consumer.ParseFrames).
- Consumer.Record: a stream header too short to read yields None, which
  Consumer.FormatGen and Consumer.PlayWrite treat as "not up yet". The C reads
  past the chunk there.
- Consumer.Open: decoder lookup and `avcodec_open2` are one parameter. The
  fields that only configure the decoder context are recorded in
  Consumer.Format but have no further use here.
- PacketQueue.Dequeue: on an empty queue the C returns an uninitialised
  packet. The model returns no packet and the unchanged queue instead of
  requiring a non-empty queue.
- Playout.Synchronise: the clock reading is the `now` parameter and the
  `usleep` is left out. The 64-bit fields are unbounded integers.
- 64-bit overflow of the consumer's extended timestamps and of the playout
  arithmetic is not modelled.

=== FILE: bytes.dfy ===
/**
 * Machine-level helpers: bytes as integers in [0, 256), C's signed 32-bit
 * wrap-around, C's truncating division and in-place buffer stores.
 */
module Bytes {

  const TWO_8: int := 0x100
  const TWO_16: int := 0x1_0000
  const TWO_24: int := 0x100_0000
  const TWO_31: int := 0x8000_0000
  const TWO_32: int := 0x1_0000_0000

  /** One byte, as `uint8_t` holds it. */
  type uint8 = x: int | 0 <= x < 0x100

  /** A value of C's `int32_t`. */
  type int32 = x: int | -0x8000_0000 <= x < 0x8000_0000

  /** The byte a C store of `x` into a `uint8_t` keeps: its low 8 bits. */
  function Low8(x: int): (b: uint8)
    ensures (x - b) % TWO_8 == 0
  {
    x % TWO_8
  }

  /** The `int32_t` a C conversion of `x` yields on a two's-complement machine. */
  function Wrap32(x: int): (r: int32)
    ensures (x - r) % TWO_32 == 0
    ensures -TWO_31 <= x < TWO_31 ==> r == x
  {
    var m := x % TWO_32;
    if m >= TWO_31 then m - TWO_32 else m
  }

  /** Two values congruent modulo 2^32 to a third are congruent to each other. */
  lemma CongruentTrans(x: int, y: int, z: int)
    requires (x - y) % TWO_32 == 0 && (y - z) % TWO_32 == 0
    ensures (x - z) % TWO_32 == 0
  {
    var p := (x - y) / TWO_32;
    var q := (y - z) / TWO_32;
    assert x - z == TWO_32 * (p + q);
  }

  /** C's `/` on `int`: the quotient rounded toward zero (Dafny's `/` is Euclidean). */
  function CDiv(a: int, b: int): (q: int)
    requires b > 0
    ensures a >= 0 ==> q == a / b
    ensures a < 0 ==> q == -((-a) / b)
  {
    if a >= 0 then a / b else -((-a) / b)
  }

  /** `n` bytes of a freshly grown buffer; the model fixes their unspecified contents to zero. */
  function Zeroes(n: nat): (r: seq<uint8>)
    ensures |r| == n
  {
    seq(n, _ => 0)
  }

  /**
   * Stores `bytes` into `buf` starting at offset `off`, the effect of a run of
   * C stores or a `memcpy` into a buffer: the length and every byte outside the
   * written range are kept.
   */
  function Write(buf: seq<uint8>, off: nat, bytes: seq<uint8>): (r: seq<uint8>)
    requires off + |bytes| <= |buf|
    ensures |r| == |buf|
    ensures r[off..off + |bytes|] == bytes
    ensures r[..off] == buf[..off]
    ensures r[off + |bytes|..] == buf[off + |bytes|..]
    ensures r[..off + |bytes|] == buf[..off] + bytes
  {
    buf[..off] + bytes + buf[off + |bytes|..]
  }

  /** A slice of `s` that lies in its suffix from `o` is the corresponding slice of that suffix. */
  lemma SliceOfSuffix<T>(s: seq<T>, o: nat, tail: seq<T>, a: nat, b: nat)
    requires o <= |s| && s[o..] == tail && a <= b <= |tail|
    ensures o + b <= |s| && s[o + a..o + b] == tail[a..b]
  {
    forall j | 0 <= j < b - a ensures s[o + a..o + b][j] == tail[a..b][j] {
      assert s[o + a + j] == s[o..][a + j];
    }
  }

  /** When the suffix of `s` from `o` is `a + b + c`, `a` and `b` sit at `o` and right after it. */
  lemma SuffixParts<T>(s: seq<T>, o: nat, a: seq<T>, b: seq<T>, c: seq<T>)
    requires o <= |s| && s[o..] == a + b + c
    ensures o + |a| + |b| <= |s|
    ensures s[o..o + |a|] == a && s[o + |a|..o + |a| + |b|] == b
  {
    forall j | 0 <= j < |a| ensures s[o..o + |a|][j] == a[j] {
      assert s[o + j] == s[o..][j];
    }
    forall j | 0 <= j < |b| ensures s[o + |a|..o + |a| + |b|][j] == b[j] {
      assert s[o + |a| + j] == s[o..][|a| + j];
    }
  }


  /** Writing over the whole tail of a buffer keeps the prefix and appends `bytes`. */
  lemma WriteAtEnd(buf: seq<uint8>, off: nat, bytes: seq<uint8>)
    requires off + |bytes| == |buf|
    ensures Write(buf, off, bytes) == buf[..off] + bytes
  {
  }

  /** A buffer that is `p` followed by the tail of `data` from `n`: replacing element `n` gives `p`, the new element, and the rest of `data`. */
  lemma UpdateAfterPrefix<T>(buf: seq<T>, p: seq<T>, data: seq<T>, n: nat, v: T)
    requires |p| == n < |data| && buf == p + data[n..]
    ensures buf[n := v] == p + [v] + data[n + 1..]
  {
    var s := buf[n := v];
    forall i | 0 <= i < |s| ensures s[i] == (p + [v] + data[n + 1..])[i] {
      if i < n {
        assert s[i] == p[i];
      } else if i > n {
        assert s[i] == data[i];
      }
    }
  }
}

=== FILE: chunk_layout.dfy ===
/**
 * The two frame layouts a multi-frame chunk can have after its stream header.
 * The producer interleaves each frame header with its payload; the consumer
 * expects every frame header first and all payloads after them. With one
 * frame per chunk the two coincide.
 */
module ChunkLayout {
  import opened Bytes
  import opened Payload

  /** One frame as the producer stores it: its 8-byte header and its payload. */
  datatype EncodedFrame = EncodedFrame(header: seq<uint8>, payload: seq<uint8>)

  predicate HeadersSized(fs: seq<EncodedFrame>) {
    forall k | 0 <= k < |fs| :: |fs[k].header| == FrameHeaderSize
  }

  /** The producer's layout: header 0, payload 0, header 1, payload 1, ... */
  function Interleave(fs: seq<EncodedFrame>): seq<uint8> {
    if fs == [] then [] else fs[0].header + fs[0].payload + Interleave(fs[1..])
  }

  /** Where frame `k` starts in the producer's layout: the sum of 8 + payload size over the frames before it. */
  function Offset(fs: seq<EncodedFrame>, k: nat): nat
    requires k <= |fs|
  {
    if k == 0 then 0 else FrameHeaderSize + |fs[0].payload| + Offset(fs[1..], k - 1)
  }

  /** The consumer's layout: all headers, then all payloads. */
  function Grouped(fs: seq<EncodedFrame>): seq<uint8> {
    Headers(fs) + Payloads(fs)
  }

  function Headers(fs: seq<EncodedFrame>): seq<uint8> {
    if fs == [] then [] else fs[0].header + Headers(fs[1..])
  }

  function Payloads(fs: seq<EncodedFrame>): seq<uint8> {
    if fs == [] then [] else fs[0].payload + Payloads(fs[1..])
  }

  /** Appending a frame appends its header and payload at the tail of the interleaved bytes. */
  lemma {:induction false} InterleaveSnoc(fs: seq<EncodedFrame>, f: EncodedFrame)
    ensures Interleave(fs + [f]) == Interleave(fs) + f.header + f.payload
  {
    if fs == [] {
      assert [f][1..] == [];
    } else {
      assert (fs + [f])[0] == fs[0] && (fs + [f])[1..] == fs[1..] + [f];
      assert Interleave(fs + [f]) == fs[0].header + fs[0].payload + Interleave(fs[1..] + [f]);
      InterleaveSnoc(fs[1..], f);
    }
  }

  /** The interleaved bytes from frame `k`'s offset on are the interleaving of frames `k..`. */
  lemma {:induction false} InterleaveSuffix(fs: seq<EncodedFrame>, k: nat)
    requires k <= |fs| && HeadersSized(fs)
    ensures Offset(fs, k) <= |Interleave(fs)|
    ensures Interleave(fs)[Offset(fs, k)..] == Interleave(fs[k..])
  {
    if k > 0 {
      var rest := fs[1..];
      assert HeadersSized(rest) by {
        forall j | 0 <= j < |rest| ensures |rest[j].header| == FrameHeaderSize {
          assert rest[j] == fs[j + 1];
        }
      }
      InterleaveSuffix(rest, k - 1);
      assert rest[k - 1..] == fs[k..];
      var first := fs[0].header + fs[0].payload;
      assert Interleave(fs) == first + Interleave(rest);
      assert |first| == FrameHeaderSize + |fs[0].payload|;
      assert Interleave(fs)[|first|..] == Interleave(rest);
    }
  }

  lemma {:induction false} InterleaveLength(fs: seq<EncodedFrame>)
    requires HeadersSized(fs)
    ensures |Interleave(fs)| == Offset(fs, |fs|)
  {
    if fs != [] {
      assert HeadersSized(fs[1..]) by {
        forall j | 0 <= j < |fs[1..]| ensures |fs[1..][j].header| == FrameHeaderSize {
          assert fs[1..][j] == fs[j + 1];
        }
      }
      InterleaveLength(fs[1..]);
    }
  }

  /**
   * In the producer's layout frame `k`'s header sits at `Offset(fs, k)` and its
   * payload immediately after, and the whole layout is `Offset(fs, |fs|)` long.
   */
  lemma FrameAt(fs: seq<EncodedFrame>, k: nat)
    requires k < |fs| && HeadersSized(fs)
    ensures Offset(fs, k) + FrameHeaderSize + |fs[k].payload| <= |Interleave(fs)|
    ensures Interleave(fs)[Offset(fs, k)..Offset(fs, k) + FrameHeaderSize] == fs[k].header
    ensures Interleave(fs)[Offset(fs, k) + FrameHeaderSize..Offset(fs, k) + FrameHeaderSize + |fs[k].payload|] == fs[k].payload
    ensures |Interleave(fs)| == Offset(fs, |fs|)
  {
    InterleaveSuffix(fs, k);
    InterleaveLength(fs);
    InterleaveFrom(fs, k);
    SuffixParts(Interleave(fs), Offset(fs, k), fs[k].header, fs[k].payload, Interleave(fs[k + 1..]));
  }

  /** The interleaving of frames `k..` starts with frame `k`. */
  lemma InterleaveFrom(fs: seq<EncodedFrame>, k: nat)
    requires k < |fs| && HeadersSized(fs)
    ensures Interleave(fs[k..]) == fs[k].header + fs[k].payload + Interleave(fs[k + 1..])
    ensures |fs[k].header| == FrameHeaderSize
  {
    assert fs[k..][0] == fs[k] && fs[k..][1..] == fs[k + 1..];
  }

  /** For a single frame the producer's and the consumer's layouts are the same bytes. */
  lemma OneFrameLayoutsAgree(f: EncodedFrame)
    ensures Interleave([f]) == Grouped([f])
  {
    assert [f][1..] == [];
    assert Interleave([f]) == f.header + f.payload;
    assert Headers([f]) == f.header && Payloads([f]) == f.payload;
  }
}

=== FILE: codecs.dfy ===
/**
 * The codec-identity table: `codec_type` (input-stream-avf.c) maps a libav
 * codec to the one-byte wire code carried as the first byte of every chunk,
 * and `libav_codec_id` (output-stream-play.c) maps a wire code back. Video
 * codecs get codes 1..13 and audio codecs 129..132, so the code alone tells
 * the media type; 0 stands for "unknown".
 */
module Codecs {
  import opened Bytes
  import opened Libav

  /** The video codecs the table knows. */
  predicate IsVideoCodec(c: CodecID) {
    c in {Mpeg1Video, Mpeg2Video, H261, H263, H263P, MJpeg, Mpeg4, Flv1, Svq3, DvVideo, H264, Theora, Vp3, Snow, Vp6, Dirac}
  }

  /** The audio codecs the table knows. */
  predicate IsAudioCodec(c: CodecID) {
    c in {Mp2, Mp3, Aac, Ac3, Vorbis}
  }

  /** The wire codes `libav_codec_id` recognises. */
  predicate IsKnownCode(b: uint8) {
    1 <= b <= 13 || 129 <= b <= 132
  }

  /** `codec_type`: the wire code of a libav codec. */
  function CodecType(cid: CodecID): (r: uint8)
    ensures IsVideoCodec(cid) <==> 1 <= r <= 13
    ensures IsAudioCodec(cid) <==> 129 <= r <= 132
    ensures r == 0 <==> !IsVideoCodec(cid) && !IsAudioCodec(cid)
  {
    match cid
    case Mpeg1Video | Mpeg2Video => 1
    case H261 => 2
    case H263P | H263 => 3
    case MJpeg => 4
    case Mpeg4 => 5
    case Flv1 => 6
    case Svq3 => 7
    case DvVideo => 8
    case H264 => 9
    case Theora | Vp3 => 10
    case Snow => 11
    case Vp6 => 12
    case Dirac => 13
    case Mp2 | Mp3 => 129
    case Aac => 130
    case Ac3 => 131
    case Vorbis => 132
    case _ => 0
  }

  /** `libav_codec_id`: the libav codec a wire code stands for, `NoCodec` for an unknown code. */
  function LibavCodecId(b: uint8): (r: CodecID)
    ensures r == NoCodec <==> !IsKnownCode(b)
    ensures 1 <= b <= 13 ==> IsVideoCodec(r)
    ensures 129 <= b <= 132 ==> IsAudioCodec(r)
  {
    match b
    case 1 => Mpeg2Video
    case 2 => H261
    case 3 => H263P
    case 4 => MJpeg
    case 5 => Mpeg4
    case 6 => Flv1
    case 7 => Svq3
    case 8 => DvVideo
    case 9 => H264
    case 10 => Theora
    case 11 => Snow
    case 12 => Vp6
    case 13 => Dirac
    case 129 => Mp3
    case 130 => Aac
    case 131 => Ac3
    case 132 => Vorbis
    case _ => NoCodec
  }

  /** Every known wire code survives the trip to a libav codec and back; unknown codes come back as 0. */
  lemma WireCodeRoundTrip(b: uint8)
    ensures CodecType(LibavCodecId(b)) == (if IsKnownCode(b) then b else 0)
  {
  }

  /**
   * A codec the producer can name comes back from the consumer as a codec with
   * the same wire code (possibly a sibling: MPEG-1 video returns as MPEG-2 video,
   * H.263 as H.263+, VP3 as Theora, MP2 as MP3).
   */
  lemma CodecRoundTrip(cid: CodecID)
    requires IsVideoCodec(cid) || IsAudioCodec(cid)
    ensures CodecType(LibavCodecId(CodecType(cid))) == CodecType(cid)
    ensures IsVideoCodec(cid) ==> IsVideoCodec(LibavCodecId(CodecType(cid)))
    ensures IsAudioCodec(cid) ==> IsAudioCodec(LibavCodecId(CodecType(cid)))
  {
    WireCodeRoundTrip(CodecType(cid));
  }

  /** Distinct wire codes name distinct libav codecs: `libav_codec_id` is injective on known codes. */
  lemma LibavCodecIdInjective(a: uint8, b: uint8)
    requires IsKnownCode(a) && IsKnownCode(b) && LibavCodecId(a) == LibavCodecId(b)
    ensures a == b
  {
    WireCodeRoundTrip(a);
    WireCodeRoundTrip(b);
  }
}

=== FILE: consumer.dfy ===
/**
 * The consumer side of the chunk format (output-stream-play.c): session
 * set-up in `play_init`, lazy initialisation in `format_gen` once every
 * selected media type has announced itself, and `play_write`, which
 * classifies a chunk by its first byte, parses its frames, extends their
 * timestamps and queues them for the video or the audio thread.
 *
 * Opening a decoder is a parameter (`opens`), and so is the clock reading
 * `av_gettime` would return. The C never checks a chunk's size: where it
 * would read past the end, the model drops the chunk or stops parsing.
 */
module Consumer {
  import opened Wrappers
  import opened Bytes
  import opened Libav
  import opened Codecs
  import opened Payload
  import opened Timestamps
  import opened PacketQueue
  import Playout

  /** The media bits 0x01 and 0x02 of `streams` and `selected_streams`, as the media they stand for. */
  type Media = set<MediaType>

  const Both: Media := {Video, Audio}

  const DefaultPlayoutDelay: int := 1000000
  const DefaultCLimit: int := 30

  /** Whether a decoder for the codec can be found and opened. */
  type Opener = CodecID -> bool

  /** What `format_gen` records from the stream headers. */
  datatype Format = Format(
    videoCodec: CodecID, audioCodec: CodecID,
    width: int, height: int, videoTimeBase: Rational,
    channels: uint8, sampleRate: int, frameSize: int, audioTimeBase: Rational)

  /**
   * `struct dechunkiser_ctx` without the device, window and thread handles.
   * `initialised` stands for a non-NULL `outctx`; `streams` collects the media
   * bits seen so far and `selected` the wanted ones.
   */
  datatype Session = Session(
    selected: Media, streams: Media, initialised: bool, format: Format,
    prevPts: int, prevDts: int,
    videoq: Queue<Packet>, audioq: Queue<Packet>,
    clock: Playout.Clock)

  /**
   * The session invariant: a selection of one or both media, no stray bits,
   * initialised only on an exact match, non-negative timestamp history,
   * consistent queues and controller.
   */
  predicate Inv(s: Session) {
    && (s.selected == {Video} || s.selected == {Audio} || s.selected == Both)
    && s.streams <= Both
    && (s.initialised ==> s.streams == s.selected)
    && s.prevPts >= 0 && s.prevDts >= 0
    && PacketQueue.Inv(s.videoq) && PacketQueue.Inv(s.audioq)
    && Playout.Inv(s.clock)
  }

  /**
   * `play_init`: a zeroed context selecting video unless the `media` key says
   * `audio` or `av` (any other value, or no key, keeps video), with a playout
   * delay of one second, no first timestamp yet (pts0 = -1) and a late-frame
   * limit of 30.
   */
  function PlayInit(media: Option<string>): (s: Session)
    ensures Inv(s) && !s.initialised && s.streams == {}
    ensures Video in s.selected <==> media != Some("audio")
    ensures Audio in s.selected <==> media == Some("audio") || media == Some("av")
    ensures s.videoq.items == [] && s.audioq.items == [] && s.prevPts == 0 && s.prevDts == 0
    ensures s.clock == Playout.Clock(0, -1, DefaultPlayoutDelay, DefaultCLimit, 0, 0)
  {
    var selected: Media :=
      match media
      case Some(m) =>
        if m == "video" then {Video}
        else if m == "audio" then {Audio}
        else if m == "av" then Both
        else {Video}
      case None => {Video};
    Session(selected, {}, false, Format(NoCodec, NoCodec, 0, 0, Rational(0, 0), 0, 0, 0, Rational(0, 0)), 0, 0,
      Empty(), Empty(), Playout.Clock(0, -1, DefaultPlayoutDelay, DefaultCLimit, 0, 0))
  }

  /** The first lines of `play_write`: a zero first byte is refused, below 127 is video, the rest audio; the header size and the media bit. */
  function Classify(b: uint8): (r: Option<(nat, MediaType)>)
    ensures r.None? <==> b == 0
    ensures r.Some? ==> r.value.1 != OtherMedia
    ensures r.Some? ==> r.value.0 == (if r.value.1 == Video then VideoPayloadHeaderSize else AudioPayloadHeaderSize)
    ensures r.Some? ==> (r.value.1 == Video <==> b < 127) && (r.value.1 == Audio <==> b >= 127)
  {
    if b == 0 then None
    else if b < 127 then Some((VideoPayloadHeaderSize, Video))
    else Some((AudioPayloadHeaderSize, Audio))
  }

  /** The media bit `format_gen` records for a first byte: below 128 video, above 128 audio, 128 neither. */
  function FormatGenMedia(b: uint8): (r: Media)
    ensures r == {Video} <==> b < 128
    ensures r == {Audio} <==> b > 128
    ensures r == {} <==> b == 128
  {
    if b < 128 then {Video} else if b > 128 then {Audio} else {}
  }

  /** The video branch of `format_gen`: set the video bit and keep the codec, the size and the frame period from the video header. */
  function RecordVideo(s: Session, data: seq<uint8>): (r: Session)
    requires |data| >= VideoPayloadHeaderSize - 1
    ensures r.streams == s.streams + {Video}
    ensures r == s.(streams := r.streams, format := r.format)
    ensures r.format == s.format.(videoCodec := r.format.videoCodec, width := r.format.width,
      height := r.format.height, videoTimeBase := r.format.videoTimeBase)
    ensures CodecType(r.format.videoCodec) == (if IsKnownCode(data[0]) then data[0] else 0)
    ensures var hdr := VideoPayloadHeaderParse(data);
      && r.format.width == hdr.width && r.format.height == hdr.height
      && r.format.videoTimeBase.num == hdr.frameRateDen && r.format.videoTimeBase.den == hdr.frameRateNum
  {
    WireCodeRoundTrip(data[0]);
    var hdr := VideoPayloadHeaderParse(data);
    s.(streams := s.streams + {Video},
       format := s.format.(videoCodec := LibavCodecId(data[0]), width := hdr.width, height := hdr.height,
         videoTimeBase := Rational(hdr.frameRateDen, hdr.frameRateNum)))
  }

  /** The audio branch of `format_gen`: set the audio bit and keep the codec, channels, rate and frame size from the audio header. */
  function RecordAudio(s: Session, data: seq<uint8>): (r: Session)
    requires |data| >= AudioPayloadHeaderSize - 1
    ensures r.streams == s.streams + {Audio}
    ensures r == s.(streams := r.streams, format := r.format)
    ensures r.format == s.format.(audioCodec := r.format.audioCodec, channels := r.format.channels,
      sampleRate := r.format.sampleRate, frameSize := r.format.frameSize, audioTimeBase := r.format.audioTimeBase)
    ensures CodecType(r.format.audioCodec) == (if IsKnownCode(data[0]) then data[0] else 0)
    ensures var hdr := AudioPayloadHeaderParse(data);
      && r.format.channels == hdr.channels && r.format.sampleRate == hdr.sampleRate && r.format.frameSize == hdr.frameSize
      && r.format.audioTimeBase.num == hdr.frameSize && r.format.audioTimeBase.den == hdr.sampleRate
  {
    WireCodeRoundTrip(data[0]);
    var hdr := AudioPayloadHeaderParse(data);
    s.(streams := s.streams + {Audio},
       format := s.format.(audioCodec := LibavCodecId(data[0]), channels := hdr.channels,
         sampleRate := hdr.sampleRate, frameSize := hdr.frameSize,
         audioTimeBase := Rational(hdr.frameSize, hdr.sampleRate)))
  }

  /**
   * The first half of `format_gen`: the stream header of the first chunk of a
   * media type not seen yet is recorded and its bit set; a chunk of a media
   * type already seen, or with first byte 128, records nothing. None when the
   * header parse would read past the chunk.
   */
  function Record(s: Session, data: seq<uint8>): (r: Option<Session>)
    requires |data| >= 1
    ensures r.None? <==>
      (FormatGenMedia(data[0]) != {} && FormatGenMedia(data[0]) !! s.streams &&
       |data| < (if data[0] < 128 then VideoPayloadHeaderSize else AudioPayloadHeaderSize) - 1)
    ensures r.Some? ==> r.value.streams == s.streams + FormatGenMedia(data[0])
    ensures r.Some? && Video !in s.streams && data[0] < 128 ==> r.value == RecordVideo(s, data)
    ensures r.Some? && Audio !in s.streams && data[0] > 128 ==> r.value == RecordAudio(s, data)
    ensures r.Some? && FormatGenMedia(data[0]) <= s.streams ==> r.value == s
  {
    var codec := data[0];
    if codec < 128 && Video !in s.streams then
      if |data| < VideoPayloadHeaderSize - 1 then None else Some(RecordVideo(s, data))
    else if codec > 128 && Audio !in s.streams then
      if |data| < AudioPayloadHeaderSize - 1 then None else Some(RecordAudio(s, data))
    else
      Some(s)
  }

  /**
   * The second half of `format_gen`: once the seen bits equal the selected
   * ones, open a decoder for each played media type and reset the timestamp
   * history. The flag says whether the session came up.
   */
  function Open(s: Session, opens: Opener): (r: (Session, bool))
    ensures r.1 <==>
      && s.streams == s.selected
      && (Video !in s.streams || opens(s.format.videoCodec))
      && (Audio !in s.streams || opens(s.format.audioCodec))
    ensures r.0 == (if r.1 then s.(prevPts := 0, prevDts := 0) else s)
  {
    if s.streams != s.selected then (s, false)
    else if Video in s.streams && !opens(s.format.videoCodec) then (s, false)
    else if Audio in s.streams && !opens(s.format.audioCodec) then (s, false)
    else (s.(prevPts := 0, prevDts := 0), true)
  }

  /** `format_gen`: record the chunk's stream header, then try to bring the session up. */
  function FormatGen(s: Session, data: seq<uint8>, opens: Opener): (r: Option<(Session, bool)>)
    requires |data| >= 1
    ensures r.None? <==> Record(s, data).None?
    ensures r.Some? ==> r.value == Open(Record(s, data).value, opens)
    ensures r.Some? ==> r.value.0.streams == s.streams + FormatGenMedia(data[0]) && r.value.0.selected == s.selected
    ensures r.Some? && r.value.1 ==> r.value.0.streams == s.selected && r.value.0.prevPts == 0 && r.value.0.prevDts == 0
    ensures r.Some? ==> r.value.0.clock == s.clock && r.value.0.initialised == s.initialised
    ensures r.Some? ==> r.value.0.videoq == s.videoq && r.value.0.audioq == s.audioq
  {
    match Record(s, data)
    case None => None
    case Some(s1) => Some(Open(s1, opens))
  }

  /*
   * The frame-parsing loop of play_write
   */

  /** A frame as `play_write` reads it: the parsed header and the payload bytes. */
  datatype ParsedFrame = ParsedFrame(header: FrameHeader, payload: seq<uint8>)

  /** Where frame `k`'s payload starts, counted from the first payload: the lengths of the payloads before it. */
  function PayloadOffset(fs: seq<ParsedFrame>, k: nat): nat
    requires k <= |fs|
  {
    if k == 0 then 0 else |fs[0].payload| + PayloadOffset(fs[1..], k - 1)
  }

  /** What `frame_header_parse` can return: a 24-bit size, a 32-bit dts and a pts that is -1 or at most 254 above it. */
  predicate HeaderInRange(h: FrameHeader) {
    && 0 <= h.size < TWO_24 && 0 <= h.dts < TWO_32
    && (h.pts == -1 || 0 <= h.pts - h.dts < NoPtsDelta)
  }

  /**
   * The frame headers of the loop: `left` of them read one after the other
   * from `q`, up to the first that would extend past the chunk.
   */
  function HeadersFrom(data: seq<uint8>, q: nat, left: nat): (r: seq<FrameHeader>)
    ensures |r| <= left
    ensures forall k | 0 <= k < |r| :: HeaderInRange(r[k])
    decreases left
  {
    if left == 0 || q + FrameHeaderSize > |data| then []
    else
      var rest := HeadersFrom(data, q + FrameHeaderSize, left - 1);
      assert ([FrameHeaderParse(data, q)] + rest)[1..] == rest;
      [FrameHeaderParse(data, q)] + rest
  }

  /**
   * The payloads of frames with headers `hs`: each as many bytes as its
   * header's size, one after the other from `p`, up to the first that would
   * extend past the chunk.
   */
  function SliceFrom(data: seq<uint8>, hs: seq<FrameHeader>, p: nat): (r: seq<ParsedFrame>)
    requires forall k | 0 <= k < |hs| :: HeaderInRange(hs[k])
    ensures |r| <= |hs|
    ensures forall k | 0 <= k < |r| :: r[k].header == hs[k] && |r[k].payload| == hs[k].size
    decreases |hs|
  {
    if hs == [] || p + hs[0].size > |data| then []
    else
      assert HeaderInRange(hs[0]);
      var f := ParsedFrame(hs[0], data[p..p + hs[0].size]);
      var rest := SliceFrom(data, hs[1..], p + hs[0].size);
      assert ([f] + rest)[1..] == rest;
      [f] + rest
  }

  /**
   * The frames of a chunk with header size `h` and `n` frames: the headers
   * follow the stream header, the payloads follow the `n` headers.
   */
  function ParseFrames(data: seq<uint8>, h: nat, n: nat): (r: seq<ParsedFrame>)
    ensures |r| <= n
    ensures forall k | 0 <= k < |r| :: HeaderInRange(r[k].header) && |r[k].payload| == r[k].header.size
  {
    SliceFrom(data, HeadersFrom(data, h, n), h + FrameHeaderSize * n)
  }

  /** The header `k` places after the one following `q` is `k + 1` places after `q`. */
  lemma NextHeader(q: nat, k: nat)
    ensures q + FrameHeaderSize + FrameHeaderSize * k == q + FrameHeaderSize * (k + 1)
  {
  }

  /** Header `k` is read `k` places after `q`. */
  lemma {:induction false} HeaderAt(data: seq<uint8>, q: nat, left: nat, k: nat)
    requires k < |HeadersFrom(data, q, left)|
    ensures q + FrameHeaderSize * (k + 1) <= |data|
    ensures HeadersFrom(data, q, left)[k] == FrameHeaderParse(data, q + FrameHeaderSize * k)
    decreases k
  {
    var rest := HeadersFrom(data, q + FrameHeaderSize, left - 1);
    assert HeadersFrom(data, q, left) == [FrameHeaderParse(data, q)] + rest;
    if k > 0 {
      HeaderAt(data, q + FrameHeaderSize, left - 1, k - 1);
      NextHeader(q, k - 1);
      NextHeader(q, k);
    }
  }

  /** The headers run short only where the next one would extend past the chunk. */
  lemma {:induction false} HeadersStop(data: seq<uint8>, q: nat, left: nat)
    ensures var r := HeadersFrom(data, q, left);
      |r| < left ==> q + FrameHeaderSize * (|r| + 1) > |data|
    decreases left
  {
    var r := HeadersFrom(data, q, left);
    if r != [] {
      var rest := HeadersFrom(data, q + FrameHeaderSize, left - 1);
      assert r == [FrameHeaderParse(data, q)] + rest;
      HeadersStop(data, q + FrameHeaderSize, left - 1);
      NextHeader(q, |rest| + 1);
    }
  }

  /** Frame `k` of `fs` has the payload found in `data` right after the payloads of the frames before it, which start at `p`. */
  predicate SlicedAt(data: seq<uint8>, fs: seq<ParsedFrame>, k: nat, p: nat) {
    && k < |fs|
    && p + PayloadOffset(fs, k) + |fs[k].payload| <= |data|
    && fs[k].payload == data[p + PayloadOffset(fs, k)..p + PayloadOffset(fs, k) + |fs[k].payload|]
  }

  /** Payload `k` is taken right after the payloads before it. */
  lemma {:induction false} PayloadAt(data: seq<uint8>, hs: seq<FrameHeader>, p: nat, k: nat)
    requires forall j | 0 <= j < |hs| :: HeaderInRange(hs[j])
    requires k < |SliceFrom(data, hs, p)|
    ensures SlicedAt(data, SliceFrom(data, hs, p), k, p)
    decreases k
  {
    var f := ParsedFrame(hs[0], data[p..p + hs[0].size]);
    var rest := SliceFrom(data, hs[1..], p + hs[0].size);
    var r := SliceFrom(data, hs, p);
    assert r == [f] + rest;
    assert r[0] == f;
    if k > 0 {
      PayloadAt(data, hs[1..], p + hs[0].size, k - 1);
      assert r[1..] == rest && r[k] == rest[k - 1];
      assert PayloadOffset(r, k) == hs[0].size + PayloadOffset(rest, k - 1);
    }
  }

  /** The payloads run short only where the next one would extend past the chunk. */
  lemma {:induction false} SliceStops(data: seq<uint8>, hs: seq<FrameHeader>, p: nat)
    requires forall j | 0 <= j < |hs| :: HeaderInRange(hs[j])
    ensures var r := SliceFrom(data, hs, p);
      |r| < |hs| ==> p + PayloadOffset(r, |r|) + hs[|r|].size > |data|
    decreases |hs|
  {
    if hs != [] && p + hs[0].size <= |data| {
      var f := ParsedFrame(hs[0], data[p..p + hs[0].size]);
      var rest := SliceFrom(data, hs[1..], p + hs[0].size);
      assert SliceFrom(data, hs, p) == [f] + rest;
      SliceStops(data, hs[1..], p + hs[0].size);
      OffsetCons(f, rest);
      if |rest| < |hs| - 1 {
        assert hs[|rest| + 1] == hs[1..][|rest|];
      }
    }
  }

  /** The payload offset past a frame put in front. */
  lemma OffsetCons(f: ParsedFrame, rest: seq<ParsedFrame>)
    ensures PayloadOffset([f] + rest, |rest| + 1) == |f.payload| + PayloadOffset(rest, |rest|)
  {
    assert ([f] + rest)[1..] == rest;
  }

  /**
   * In a chunk with header size `h` and `n` frames, parsed frame `k` has its
   * header read at `h + 8k` and its payload taken right after the payloads of
   * the frames before it, the first payload starting at `h + 8n`.
   */
  lemma ParsedFramesAt(data: seq<uint8>, h: nat, n: nat, k: nat)
    requires k < |ParseFrames(data, h, n)|
    ensures h + FrameHeaderSize * (k + 1) <= |data|
    ensures ParseFrames(data, h, n)[k].header == FrameHeaderParse(data, h + FrameHeaderSize * k)
    ensures SlicedAt(data, ParseFrames(data, h, n), k, h + FrameHeaderSize * n)
  {
    ParsedHeaderAt(data, h, n, k);
    ParsedPayloadAt(data, h, n, k);
  }

  /** Header `k` of the parse is the one read at `h + 8k`. */
  lemma ParsedHeaderAt(data: seq<uint8>, h: nat, n: nat, k: nat)
    requires k < |ParseFrames(data, h, n)|
    ensures h + FrameHeaderSize * (k + 1) <= |data|
    ensures ParseFrames(data, h, n)[k].header == FrameHeaderParse(data, h + FrameHeaderSize * k)
  {
    HeaderAt(data, h, n, k);
  }

  /** Payload `k` of the parse follows the earlier payloads, from `h + 8n` on. */
  lemma ParsedPayloadAt(data: seq<uint8>, h: nat, n: nat, k: nat)
    requires k < |ParseFrames(data, h, n)|
    ensures SlicedAt(data, ParseFrames(data, h, n), k, h + FrameHeaderSize * n)
  {
    PayloadAt(data, HeadersFrom(data, h, n), h + FrameHeaderSize * n, k);
  }

  /**
   * The parse returns fewer than `n` frames only when the next frame's header
   * or its payload would extend past the chunk.
   */
  lemma ParseFramesStop(data: seq<uint8>, h: nat, n: nat)
    ensures var r := ParseFrames(data, h, n);
      |r| < n ==>
        var j := h + FrameHeaderSize * |r|;
        j + FrameHeaderSize > |data| ||
        h + FrameHeaderSize * n + PayloadOffset(r, |r|) + FrameHeaderParse(data, j).size > |data|
  {
    var r := ParseFrames(data, h, n);
    if |r| < |HeadersFrom(data, h, n)| {
      StopInPayload(data, h, n);
    } else if |r| < n {
      StopInHeaders(data, h, n);
    }
  }

  /** A parse that read more headers than it kept stopped at a payload that would extend past the chunk. */
  lemma StopInPayload(data: seq<uint8>, h: nat, n: nat)
    requires |ParseFrames(data, h, n)| < |HeadersFrom(data, h, n)|
    ensures var r := ParseFrames(data, h, n);
      var j := h + FrameHeaderSize * |r|;
      && j + FrameHeaderSize <= |data|
      && h + FrameHeaderSize * n + PayloadOffset(r, |r|) + FrameHeaderParse(data, j).size > |data|
  {
    var hs := HeadersFrom(data, h, n);
    var p := h + FrameHeaderSize * n;
    var r := ParseFrames(data, h, n);
    assert r == SliceFrom(data, hs, p);
    SliceStops(data, hs, p);
    HeaderAt(data, h, n, |r|);
  }

  /** A parse that kept every header it read but fewer than `n` stopped at a header that would extend past the chunk. */
  lemma StopInHeaders(data: seq<uint8>, h: nat, n: nat)
    requires |ParseFrames(data, h, n)| == |HeadersFrom(data, h, n)| < n
    ensures h + FrameHeaderSize * |ParseFrames(data, h, n)| + FrameHeaderSize > |data|
  {
    var r := ParseFrames(data, h, n);
    HeadersStop(data, h, n);
    NextHeader(h, |r|);
  }

  /*
   * Delivery of parsed frames
   */

  /** `pkt.stream_index` is 1, the audio queue, only for audio when the session also plays video; everything else goes to the video queue. */
  predicate ToAudioQueue(s: Session, media: MediaType) {
    media == Audio && Video in s.streams
  }

  /** The queued packet carries the frame's payload, its queue's stream index and timestamps with the frame's low 32 bits. */
  predicate Carries(pkt: Packet, f: ParsedFrame, toAudio: bool) {
    && pkt.data == f.payload
    && pkt.streamIndex == (if toAudio then 1 else 0)
    && (pkt.pts == NoPtsValue <==> f.header.pts == -1)
    && (f.header.pts != -1 ==> (pkt.pts - f.header.pts) % TWO_32 == 0)
    && (pkt.dts - f.header.dts) % TWO_32 == 0
  }

  /** The queue a chunk of `media` feeds. */
  function Target(s: Session, media: MediaType): Queue<Packet> {
    if ToAudioQueue(s, media) then s.audioq else s.videoq
  }

  /** The queue it leaves alone. */
  function Bystander(s: Session, media: MediaType): Queue<Packet> {
    if ToAudioQueue(s, media) then s.videoq else s.audioq
  }

  /** The packet built for a frame: timestamps extended against the shared history, the payload copied. */
  function PacketOf(s: Session, f: ParsedFrame, media: MediaType): (pkt: Packet)
    requires s.prevPts >= 0 && s.prevDts >= 0 && HeaderInRange(f.header)
    ensures Carries(pkt, f, ToAudioQueue(s, media))
    ensures f.header.pts != -1 ==> pkt.pts == Extend(f.header.pts, s.prevPts)
    ensures pkt.dts == Extend(f.header.dts, s.prevDts)
  {
    var pts := if f.header.pts != -1 then Extend(f.header.pts, s.prevPts) else NoPtsValue;
    Packet(if ToAudioQueue(s, media) then 1 else 0, f.payload, pts, Extend(f.header.dts, s.prevDts))
  }

  /**
   * One iteration of the loop: extend pts (unless absent, which leaves
   * `prev_pts` alone) and dts against the shared history, and queue the packet.
   */
  function DeliverOne(s: Session, f: ParsedFrame, media: MediaType): (r: Session)
    requires s.prevPts >= 0 && s.prevDts >= 0 && HeaderInRange(f.header)
    ensures r.prevPts >= 0 && r.prevDts >= 0
    ensures r == s.(prevPts := r.prevPts, prevDts := r.prevDts, videoq := r.videoq, audioq := r.audioq)
    ensures f.header.pts == -1 ==> r.prevPts == s.prevPts
    ensures f.header.pts != -1 ==> r.prevPts == Extend(f.header.pts, s.prevPts)
    ensures r.prevDts == Extend(f.header.dts, s.prevDts)
    ensures Target(r, media) == Enqueue(Target(s, media), PacketOf(s, f, media))
    ensures Bystander(r, media) == Bystander(s, media)
  {
    var pkt := PacketOf(s, f, media);
    var s1 := s.(prevPts := if f.header.pts != -1 then pkt.pts else s.prevPts, prevDts := pkt.dts);
    if ToAudioQueue(s, media) then s1.(audioq := Enqueue(s.audioq, pkt))
    else s1.(videoq := Enqueue(s.videoq, pkt))
  }

  /** The frames in order, all into the same queue: one packet each, appended in frame order. */
  function DeliverAll(s: Session, fs: seq<ParsedFrame>, media: MediaType): (r: Session)
    requires s.prevPts >= 0 && s.prevDts >= 0
    requires forall k | 0 <= k < |fs| :: HeaderInRange(fs[k].header)
    ensures r.prevPts >= 0 && r.prevDts >= 0
    ensures r == s.(prevPts := r.prevPts, prevDts := r.prevDts, videoq := r.videoq, audioq := r.audioq)
    ensures Bystander(r, media) == Bystander(s, media)
    ensures |Target(r, media).items| == |Target(s, media).items| + |fs|
    ensures Target(r, media).items[..|Target(s, media).items|] == Target(s, media).items
    ensures Target(r, media).length == Target(s, media).length + |fs|
    decreases |fs|
  {
    if fs == [] then s
    else
      var s1 := DeliverOne(s, fs[0], media);
      var r := DeliverAll(s1, fs[1..], media);
      assert ToAudioQueue(s1, media) == ToAudioQueue(s, media);
      var q := Target(s, media).items;
      var q1 := Target(s1, media).items;
      var q' := Target(r, media).items;
      assert q'[..|q|] == q by { assert q'[..|q|] == q'[..|q1|][..|q|]; }
      r
  }

  /** Packet `k` that a delivery appends carries frame `k`. */
  lemma {:induction false} DeliveredAt(s: Session, fs: seq<ParsedFrame>, media: MediaType, k: nat)
    requires s.prevPts >= 0 && s.prevDts >= 0
    requires forall j | 0 <= j < |fs| :: HeaderInRange(fs[j].header)
    requires k < |fs|
    ensures Carries(Target(DeliverAll(s, fs, media), media).items[|Target(s, media).items| + k], fs[k], ToAudioQueue(s, media))
    decreases k
  {
    var s1 := DeliverOne(s, fs[0], media);
    var q := Target(s, media).items;
    var q1 := Target(s1, media).items;
    var q' := Target(DeliverAll(s, fs, media), media).items;
    assert DeliverAll(s, fs, media) == DeliverAll(s1, fs[1..], media);
    assert ToAudioQueue(s1, media) == ToAudioQueue(s, media);
    if k == 0 {
      assert q'[|q|] == q'[..|q1|][|q|] == q1[|q|];
    } else {
      DeliveredAt(s1, fs[1..], media, k - 1);
      assert fs[1..][k - 1] == fs[k];
      assert |q1| + (k - 1) == |q| + k;
    }
  }

  /*
   * play_write
   */

  /** The start of the session in `play_write`: the reference time `t0` is taken from the clock if not set yet. */
  function Start(s: Session, now: int): (r: Session)
    ensures r.initialised && r == s.(initialised := true, clock := r.clock)
    ensures r.clock == s.clock.(t0 := r.clock.t0)
    ensures s.clock.t0 != 0 ==> r.clock.t0 == s.clock.t0
    ensures s.clock.t0 == 0 ==> r.clock.t0 == now
  {
    s.(initialised := true, clock := if s.clock.t0 == 0 then s.clock.(t0 := now) else s.clock)
  }

  /**
   * The frame loop of `play_write` on an initialised session: nothing for a
   * media type the session does not play, otherwise every frame of the chunk
   * in order (the count is the stream header's last byte).
   */
  function Frames(s: Session, data: seq<uint8>, h: nat, media: MediaType): (r: Session)
    requires s.prevPts >= 0 && s.prevDts >= 0 && h > 0
    ensures r.prevPts >= 0 && r.prevDts >= 0
    ensures r == s.(prevPts := r.prevPts, prevDts := r.prevDts, videoq := r.videoq, audioq := r.audioq)
    ensures media !in s.streams || |data| < h ==> r == s
    ensures media in s.streams && |data| >= h ==>
      r == DeliverAll(s, ParseFrames(data, h, data[h - 1]), media)
    ensures Inv(s) ==> Inv(r)
  {
    if media !in s.streams then s
    else if |data| < h then s
    else
      var fs := ParseFrames(data, h, data[h - 1]);
      DeliverAllKeepsInv(s, fs, media);
      DeliverAll(s, fs, media)
  }

  /** Delivering frames keeps both queue counters in step with their packets. */
  lemma DeliverAllKeepsInv(s: Session, fs: seq<ParsedFrame>, media: MediaType)
    requires s.prevPts >= 0 && s.prevDts >= 0
    requires forall k | 0 <= k < |fs| :: HeaderInRange(fs[k].header)
    ensures Inv(s) ==> Inv(DeliverAll(s, fs, media))
  {
    var r := DeliverAll(s, fs, media);
    if ToAudioQueue(s, media) {
      assert r.videoq == s.videoq && r.audioq == Target(r, media);
    } else {
      assert r.audioq == s.audioq && r.videoq == Target(r, media);
    }
  }

  /**
   * `play_write`: refuse a chunk whose first byte is 0; until the session is
   * up, pass every chunk to `format_gen` and stop unless that brings the
   * session up; then queue the chunk's frames if its media type is played.
   */
  function PlayWrite(s: Session, data: seq<uint8>, now: int, opens: Opener): (r: Session)
    requires Inv(s)
    ensures Inv(r)
    ensures r.selected == s.selected
    ensures |data| == 0 || data[0] == 0 ==> r == s
    ensures s.streams <= r.streams
    ensures s.initialised ==> r.initialised && r.streams == s.streams && r.clock == s.clock
    ensures !r.initialised ==> r.videoq == s.videoq && r.audioq == s.audioq
    ensures s.initialised && |data| > 0 && data[0] != 0 && Classify(data[0]).value.1 !in s.streams ==> r == s
    ensures r.clock == s.clock.(t0 := r.clock.t0)
    ensures s.clock.t0 != 0 ==> r.clock.t0 == s.clock.t0
    ensures !s.initialised && r.initialised ==> r.clock.t0 == (if s.clock.t0 == 0 then now else s.clock.t0)
  {
    if |data| == 0 then s
    else match Classify(data[0])
      case None => s
      case Some((h, media)) =>
        if s.initialised then Frames(s, data, h, media)
        else Admit(s, data, h, media, now, opens)
  }

  /**
   * The branch of `play_write` before the session is up: hand the chunk to
   * `format_gen`; if that brings the session up, start it and queue the
   * chunk's frames, otherwise queue nothing.
   */
  function Admit(s: Session, data: seq<uint8>, h: nat, media: MediaType, now: int, opens: Opener): (r: Session)
    requires Inv(s) && !s.initialised && |data| >= 1 && h > 0
    ensures Inv(r) && r.selected == s.selected && s.streams <= r.streams
    ensures !r.initialised ==> r.videoq == s.videoq && r.audioq == s.audioq
    ensures !r.initialised ==> r.clock == s.clock
    ensures r.initialised ==> r.clock == s.clock.(t0 := if s.clock.t0 == 0 then now else s.clock.t0)
  {
    match FormatGen(s, data, opens)
    case None => s
    case Some((s1, up)) =>
      if !up then s1
      else Frames(Start(s1, now), data, h, media)
  }

  /*
   * Properties
   */

  /** For every code of the codec table, the first-byte classification agrees with the codec's media type. */
  lemma ClassifyAgreesWithCodecTable(b: uint8)
    ensures IsVideoCodec(LibavCodecId(b)) ==> Classify(b) == Some((VideoPayloadHeaderSize, Video)) && FormatGenMedia(b) == {Video}
    ensures IsAudioCodec(LibavCodecId(b)) ==> Classify(b) == Some((AudioPayloadHeaderSize, Audio)) && FormatGenMedia(b) == {Audio}
  {
  }

  /** The two tests disagree on byte 127: `play_write` takes it for audio, `format_gen` for video; byte 128 is audio to one and nothing to the other. */
  lemma BoundaryCodesDisagree()
    ensures Classify(127) == Some((AudioPayloadHeaderSize, Audio)) && FormatGenMedia(127) == {Video}
    ensures Classify(128) == Some((AudioPayloadHeaderSize, Audio)) && FormatGenMedia(128) == {}
  {
  }

  /** Once a media bit outside the selection is recorded, the session can never come up and nothing is ever queued. */
  lemma StrayBitBlocksForever(s: Session, data: seq<uint8>, now: int, opens: Opener)
    requires Inv(s) && !s.initialised && !(s.streams <= s.selected)
    ensures var r := PlayWrite(s, data, now, opens);
      !r.initialised && !(r.streams <= r.selected) && r.videoq == s.videoq && r.audioq == s.audioq
  {
  }

  /**
   * A video-only session that first receives an audio chunk records the audio
   * bit although audio is not selected, and is blocked from then on.
   */
  lemma AudioFirstBlocksVideoSession(data: seq<uint8>, now: int, opens: Opener)
    requires |data| >= AudioPayloadHeaderSize && data[0] > 128
    ensures var s := PlayWrite(PlayInit(None), data, now, opens);
      !s.initialised && s.streams == {Audio} && !(s.streams <= s.selected)
  {
    var s0 := PlayInit(None);
    assert s0.selected == {Video};
    var g := FormatGen(s0, data, opens);
    assert g.Some? && g.value.0.streams == {Audio};
  }

  /** On an initialised session, a chunk of a media type it does not play changes nothing. */
  lemma UnplayedMediaIgnored(s: Session, data: seq<uint8>, now: int, opens: Opener)
    requires Inv(s) && s.initialised && |data| > 0 && data[0] != 0
    requires Classify(data[0]).value.1 !in s.streams
    ensures PlayWrite(s, data, now, opens) == s
  {
  }

  /**
   * On a running session, a chunk of a played media type goes to the audio
   * queue exactly when it is audio and the session plays both media; every
   * other chunk goes to the video queue.
   */
  lemma QueueRouting(s: Session, media: MediaType)
    requires Inv(s) && s.initialised && media in s.streams
    ensures ToAudioQueue(s, media) <==> media == Audio && s.selected == Both
    ensures Target(s, media) == (if media == Audio && s.selected == Both then s.audioq else s.videoq)
  {
  }

  /** In an audio-only session the audio frames go to the video queue: `stream_index` is 1 only when video is also played. */
  lemma AudioOnlyUsesVideoQueue(s: Session)
    requires Inv(s) && s.initialised && s.selected == {Audio}
    ensures !ToAudioQueue(s, Audio)
  {
  }

  /**
   * On an initialised session, a chunk of a played media type appends one
   * packet per parsed frame, in frame order, to the queue its media type is
   * routed to, and leaves the other queue alone.
   */
  lemma PlayWriteQueuesFrames(s: Session, data: seq<uint8>, now: int, opens: Opener, h: nat, media: MediaType)
    requires Inv(s) && s.initialised && |data| > 0 && Classify(data[0]) == Some((h, media))
    requires media in s.streams && |data| >= h
    ensures h > 0
    ensures var fs := ParseFrames(data, h, data[h - 1]);
      var r := PlayWrite(s, data, now, opens);
      var q := Target(s, media).items; var q' := Target(r, media).items;
      && Bystander(r, media) == Bystander(s, media)
      && |q'| == |q| + |fs| && q'[..|q|] == q
      && forall k | 0 <= k < |fs| :: Carries(q'[|q| + k], fs[k], ToAudioQueue(s, media))
  {
    var fs := ParseFrames(data, h, data[h - 1]);
    var r := PlayWrite(s, data, now, opens);
    PlayWriteRunning(s, data, now, opens, h, media);
    assert r == DeliverAll(s, fs, media);
    DeliverAllCarries(s, fs, media, r);
  }

  /**
   * The chunk that brings the session up is not dropped: `play_write` starts
   * the session and falls through to the frame loop, so that chunk's frames
   * are queued like those of any later chunk.
   */
  lemma AdmittingChunkQueued(s: Session, data: seq<uint8>, now: int, opens: Opener, h: nat, media: MediaType)
    requires Inv(s) && !s.initialised && |data| > 0 && Classify(data[0]) == Some((h, media))
    requires FormatGen(s, data, opens).Some? && FormatGen(s, data, opens).value.1
    requires media in s.selected && |data| >= h
    ensures h > 0
    ensures var fs := ParseFrames(data, h, data[h - 1]);
      var r := PlayWrite(s, data, now, opens);
      var toAudio := media == Audio && s.selected == Both;
      var q := (if toAudio then s.audioq else s.videoq).items;
      var q' := (if toAudio then r.audioq else r.videoq).items;
      && r.initialised
      && (if toAudio then r.videoq == s.videoq else r.audioq == s.audioq)
      && |q'| == |q| + |fs| && q'[..|q|] == q
      && forall k | 0 <= k < |fs| :: Carries(q'[|q| + k], fs[k], toAudio)
  {
    var s1 := Start(FormatGen(s, data, opens).value.0, now);
    AdmitDelivers(s, data, now, opens, h, media);
    DeliveredOnStarted(s, s1, ParseFrames(data, h, data[h - 1]), media, PlayWrite(s, data, now, opens));
  }

  /** Delivery on a started session whose queues and routing are those of `s`, seen from `s`. */
  lemma DeliveredOnStarted(s: Session, s1: Session, fs: seq<ParsedFrame>, media: MediaType, r: Session)
    requires s1.initialised && s1.prevPts >= 0 && s1.prevDts >= 0
    requires s1.videoq == s.videoq && s1.audioq == s.audioq
    requires ToAudioQueue(s1, media) == (media == Audio && s.selected == Both)
    requires forall k | 0 <= k < |fs| :: HeaderInRange(fs[k].header)
    requires r == DeliverAll(s1, fs, media)
    ensures var toAudio := media == Audio && s.selected == Both;
      var q := (if toAudio then s.audioq else s.videoq).items;
      var q' := (if toAudio then r.audioq else r.videoq).items;
      && r.initialised
      && (if toAudio then r.videoq == s.videoq else r.audioq == s.audioq)
      && |q'| == |q| + |fs| && q'[..|q|] == q
      && forall k | 0 <= k < |fs| :: Carries(q'[|q| + k], fs[k], toAudio)
  {
    DeliverAllCarries(s1, fs, media, r);
  }

  /** The admitting chunk's delivery runs on the started session, whose queues and routing are those of the selection. */
  lemma AdmitDelivers(s: Session, data: seq<uint8>, now: int, opens: Opener, h: nat, media: MediaType)
    requires Inv(s) && !s.initialised && |data| > 0 && Classify(data[0]) == Some((h, media))
    requires FormatGen(s, data, opens).Some? && FormatGen(s, data, opens).value.1
    requires media in s.selected && |data| >= h
    ensures h > 0
    ensures var s1 := Start(FormatGen(s, data, opens).value.0, now);
      && s1.initialised && s1.prevPts == 0 && s1.prevDts == 0
      && s1.videoq == s.videoq && s1.audioq == s.audioq
      && ToAudioQueue(s1, media) == (media == Audio && s.selected == Both)
      && PlayWrite(s, data, now, opens) == DeliverAll(s1, ParseFrames(data, h, data[h - 1]), media)
  {
    var g := FormatGen(s, data, opens).value.0;
    StartedSession(s, g, now, media);
    var s1 := Start(g, now);
    assert PlayWrite(s, data, now, opens) == Admit(s, data, h, media, now, opens);
    assert Admit(s, data, h, media, now, opens) == Frames(s1, data, h, media);
  }

  /** Starting the session `format_gen` brought up keeps the queues and routes by the selection. */
  lemma StartedSession(s: Session, g: Session, now: int, media: MediaType)
    requires Inv(s) && media in s.selected
    requires g.streams == s.selected && g.prevPts == 0 && g.prevDts == 0
    requires g.videoq == s.videoq && g.audioq == s.audioq
    ensures var s1 := Start(g, now);
      && s1.initialised && s1.streams == s.selected && s1.prevPts == 0 && s1.prevDts == 0
      && s1.videoq == s.videoq && s1.audioq == s.audioq
      && ToAudioQueue(s1, media) == (media == Audio && s.selected == Both)
  {
  }

  /** On a running session a chunk with a known first byte goes straight to the frame loop. */
  lemma PlayWriteRunning(s: Session, data: seq<uint8>, now: int, opens: Opener, h: nat, media: MediaType)
    requires Inv(s) && s.initialised && |data| > 0 && Classify(data[0]) == Some((h, media))
    ensures h > 0 && PlayWrite(s, data, now, opens) == Frames(s, data, h, media)
  {
  }

  /** Every packet a delivery appends carries its frame, in frame order, and the other queue is left alone. */
  lemma DeliverAllCarries(s: Session, fs: seq<ParsedFrame>, media: MediaType, r: Session)
    requires s.prevPts >= 0 && s.prevDts >= 0
    requires forall j | 0 <= j < |fs| :: HeaderInRange(fs[j].header)
    requires r == DeliverAll(s, fs, media)
    ensures var q := Target(s, media).items; var q' := Target(r, media).items;
      && Bystander(r, media) == Bystander(s, media)
      && |q'| == |q| + |fs| && q'[..|q|] == q
      && forall k | 0 <= k < |fs| :: Carries(q'[|q| + k], fs[k], ToAudioQueue(s, media))
  {
    forall k | 0 <= k < |fs|
      ensures Carries(Target(r, media).items[|Target(s, media).items| + k], fs[k], ToAudioQueue(s, media))
    {
      DeliveredAt(s, fs, media, k);
    }
  }
}

=== FILE: end_to_end.dfy ===
/**
 * What the consumer makes of the producer's chunks. With one frame per chunk
 * (the default `vframes`/`aframes`) the frame header and payload come back
 * intact; with more, the producer's interleaved layout is misread by the
 * consumer, which expects all headers first.
 */
module EndToEnd {
  import opened Wrappers
  import opened Bytes
  import opened Libav
  import opened Codecs
  import opened Payload
  import opened ChunkLayout
  import Producer
  import Consumer

  /** The chunk the producer seals for a single frame. */
  function OneFrameBytes(st: Producer.Stream, fh: seq<uint8>, payload: seq<uint8>): (r: seq<uint8>)
    requires st.mediaType != OtherMedia
    ensures |r| == Producer.HeaderSize(st.mediaType) + |fh| + |payload|
  {
    Producer.StreamHeaderBytes(st) + [1] + fh + payload
  }

  /**
   * The consumer's frame loop on a one-frame chunk recovers the size (below
   * 2^24), the wire pts and dts and the payload the producer wrote.
   */
  lemma OneFrameParsesBack(st: Producer.Stream, size: int, pts: int32, dts: int32, payload: seq<uint8>)
    requires st.mediaType != OtherMedia && |payload| == size < TWO_24
    ensures var chunk := OneFrameBytes(st, FrameHeaderBytes(size, pts, dts), payload);
      var h := Producer.HeaderSize(st.mediaType);
      && chunk[h - 1] == 1
      && Consumer.ParseFrames(chunk, h, 1) == [Consumer.ParsedFrame(FrameHeader(size, WirePts(pts, dts), dts % TWO_32), payload)]
  {
    var fh := FrameHeaderBytes(size, pts, dts);
    ParseFrameHeaderBytes(size, pts, dts);
    ParseOneFrameChunk(st, fh, payload);
  }

  /** Any eight header bytes whose size field matches the payload: the chunk is read back as that header and payload. */
  lemma ParseOneFrameChunk(st: Producer.Stream, fh: seq<uint8>, payload: seq<uint8>)
    requires st.mediaType != OtherMedia && |fh| == FrameHeaderSize && FrameHeaderParse(fh, 0).size == |payload|
    ensures var chunk := OneFrameBytes(st, fh, payload);
      var h := Producer.HeaderSize(st.mediaType);
      && chunk[h - 1] == 1
      && Consumer.ParseFrames(chunk, h, 1) == [Consumer.ParsedFrame(FrameHeaderParse(fh, 0), payload)]
  {
    var chunk := OneFrameBytes(st, fh, payload);
    var h := Producer.HeaderSize(st.mediaType);
    var hb := Producer.StreamHeaderBytes(st);
    assert chunk == hb + [1] + fh + payload;
    assert |hb| + 1 == h;
    assert chunk[h..h + FrameHeaderSize] == fh;
    assert chunk[h + FrameHeaderSize..h + FrameHeaderSize + |payload|] == payload;
    ParseAt(chunk, h, fh);
    ParseOne(chunk, h);
  }

  /** The consumer's loop over one frame: the header at `q` and the payload right behind it, when both fit. */
  lemma ParseOne(data: seq<uint8>, q: nat)
    requires q + FrameHeaderSize <= |data|
    requires q + FrameHeaderSize + FrameHeaderParse(data, q).size <= |data|
    ensures var hdr := FrameHeaderParse(data, q);
      Consumer.ParseFrames(data, q, 1) == [Consumer.ParsedFrame(hdr, data[q + FrameHeaderSize..q + FrameHeaderSize + hdr.size])]
  {
    var hdr := FrameHeaderParse(data, q);
    assert Consumer.HeadersFrom(data, q, 1) == [hdr] + Consumer.HeadersFrom(data, q + FrameHeaderSize, 0);
    assert [hdr][1..] == [];
  }

  /** The first byte of a producer chunk is its codec's wire code, so a stream whose codec has none yields chunks the consumer refuses. */
  lemma UnknownCodecChunkRefused(st: Producer.Stream, fh: seq<uint8>, payload: seq<uint8>, s: Consumer.Session, now: int, opens: Consumer.Opener)
    requires st.mediaType != OtherMedia && !IsVideoCodec(st.codec) && !IsAudioCodec(st.codec)
    requires Consumer.Inv(s)
    ensures Consumer.PlayWrite(s, OneFrameBytes(st, fh, payload), now, opens) == s
  {
    assert OneFrameBytes(st, fh, payload)[0] == CodecType(st.codec) == 0;
  }

  /** A video stream with a video codec, or an audio stream with an audio codec, yields chunks the consumer files under the same media type and header size. */
  lemma KnownCodecChunkClassified(st: Producer.Stream, fh: seq<uint8>, payload: seq<uint8>)
    requires (st.mediaType == Video && IsVideoCodec(st.codec)) || (st.mediaType == Audio && IsAudioCodec(st.codec))
    ensures Consumer.Classify(OneFrameBytes(st, fh, payload)[0]) == Some((Producer.HeaderSize(st.mediaType), st.mediaType))
  {
    assert OneFrameBytes(st, fh, payload)[0] == CodecType(st.codec);
  }

  /**
   * A one-frame chunk sealed by `avf_chunkise` and handed to a running player
   * that plays its media type ends up as exactly one queued packet carrying the
   * payload, with the frame's dts and pts in its low 32 bits.
   */
  lemma OneFrameChunkDelivered(c: Producer.Chunkiser, pkt: Packet, rescale: Rescale, s: Consumer.Session, now: int, opens: Consumer.Opener)
    requires Producer.Valid(c) && pkt.streamIndex in c.selected
    requires var st := c.streams[pkt.streamIndex];
      && Producer.AccOf(c, st.mediaType).frames == 0 && Producer.FramesMaxOf(c, st.mediaType) == 1
      && ((st.mediaType == Video && IsVideoCodec(st.codec)) || (st.mediaType == Audio && IsAudioCodec(st.codec)))
    requires |pkt.data| < TWO_24
    requires Consumer.Inv(s) && s.initialised && c.streams[pkt.streamIndex].mediaType in s.streams
    ensures var st := c.streams[pkt.streamIndex];
      var stamps := Producer.FrameTimestamps(pkt, st, Producer.GetNewTb(st), c.baseTs, rescale);
      var chunk := Producer.Accumulate(c, pkt, rescale).chunk.value;
      var r := Consumer.PlayWrite(s, chunk, now, opens);
      var q := Consumer.Target(s, st.mediaType).items;
      var q' := Consumer.Target(r, st.mediaType).items;
      && Consumer.Bystander(r, st.mediaType) == Consumer.Bystander(s, st.mediaType)
      && |q'| == |q| + 1 && q'[..|q|] == q
      && Consumer.Carries(q'[|q|], Consumer.ParsedFrame(FrameHeader(|pkt.data|, WirePts(stamps.0, stamps.1), stamps.1 % TWO_32), pkt.data),
           Consumer.ToAudioQueue(s, st.mediaType))
  {
    var st := c.streams[pkt.streamIndex];
    var stamps := Producer.FrameTimestamps(pkt, st, Producer.GetNewTb(st), c.baseTs, rescale);
    var fh := FrameHeaderBytes(|pkt.data|, stamps.0, stamps.1);
    var hdr := FrameHeader(|pkt.data|, WirePts(stamps.0, stamps.1), stamps.1 % TWO_32);
    Producer.OneFrameChunk(c, pkt, rescale);
    var chunk := Producer.Accumulate(c, pkt, rescale).chunk.value;
    SmallFrameHeader(|pkt.data|, stamps.0, stamps.1);
    assert chunk == OneFrameBytes(st, fh, pkt.data);
    OneFrameBytesDelivered(st, fh, hdr, pkt.data, chunk, s, now, opens);
  }

  /** A size below 2^24 survives the frame header unchanged. */
  lemma SmallFrameHeader(size: int, pts: int32, dts: int32)
    requires 0 <= size < TWO_24
    ensures FrameHeaderParse(FrameHeaderBytes(size, pts, dts), 0) == FrameHeader(size, WirePts(pts, dts), dts % TWO_32)
  {
    assert size % TWO_24 == size;
    ParseFrameHeaderBytes(size, pts, dts);
  }

  /** A running player that plays the stream's media type queues one packet for a chunk of one frame with well-sized header bytes. */
  lemma OneFrameBytesDelivered(st: Producer.Stream, fh: seq<uint8>, hdr: FrameHeader, payload: seq<uint8>, chunk: seq<uint8>,
                               s: Consumer.Session, now: int, opens: Consumer.Opener)
    requires (st.mediaType == Video && IsVideoCodec(st.codec)) || (st.mediaType == Audio && IsAudioCodec(st.codec))
    requires |fh| == FrameHeaderSize && FrameHeaderParse(fh, 0) == hdr && hdr.size == |payload|
    requires chunk == OneFrameBytes(st, fh, payload)
    requires Consumer.Inv(s) && s.initialised && st.mediaType in s.streams
    ensures var r := Consumer.PlayWrite(s, chunk, now, opens);
      var q := Consumer.Target(s, st.mediaType).items;
      var q' := Consumer.Target(r, st.mediaType).items;
      && Consumer.Bystander(r, st.mediaType) == Consumer.Bystander(s, st.mediaType)
      && |q'| == |q| + 1 && q'[..|q|] == q
      && Consumer.Carries(q'[|q|], Consumer.ParsedFrame(hdr, payload), Consumer.ToAudioQueue(s, st.mediaType))
  {
    ParseOneFrameChunk(st, fh, payload);
    KnownCodecChunkClassified(st, fh, payload);
    Consumer.PlayWriteQueuesFrames(s, chunk, now, opens, Producer.HeaderSize(st.mediaType), st.mediaType);
  }

  /** Storing a chunk's own leading bytes over it changes nothing. */
  lemma WriteOfPrefix(chunk: seq<uint8>, bytes: seq<uint8>)
    requires |bytes| <= |chunk| && chunk[..|bytes|] == bytes
    ensures Write(chunk, 0, bytes) == chunk
  {
    var r := Write(chunk, 0, bytes);
    assert r == r[..|bytes|] + r[|bytes|..];
    assert chunk == chunk[..|bytes|] + chunk[|bytes|..];
  }

  /**
   * The first chunk of a video stream tells `format_gen` the producer's codec
   * (as the sibling with the same wire code), frame size and frame period,
   * each as its 16-bit store keeps it.
   */
  lemma VideoHeaderRecorded(st: Producer.Stream, fh: seq<uint8>, payload: seq<uint8>, s: Consumer.Session)
    requires st.mediaType == Video && IsVideoCodec(st.codec)
    ensures var f := Consumer.RecordVideo(s, OneFrameBytes(st, fh, payload)).format;
      var rate := Producer.VideoRate(st);
      && CodecType(f.videoCodec) == CodecType(st.codec) && IsVideoCodec(f.videoCodec)
      && f.width == st.width % TWO_16 && f.height == st.height % TWO_16
      && f.videoTimeBase == Rational(rate.den % TWO_16, rate.num % TWO_16)
  {
    var chunk := OneFrameBytes(st, fh, payload);
    var bytes := Producer.StreamHeaderBytes(st);
    assert chunk[..|bytes|] == bytes;
    WriteOfPrefix(chunk, bytes);
    assert Producer.VideoHeaderFill(chunk, st) == chunk;
    CodecRoundTrip(st.codec);
  }

  /**
   * The first chunk of an audio stream tells `format_gen` the producer's codec
   * (as the sibling with the same wire code), channel count, sample rate and
   * frame size, each as its store keeps it.
   */
  lemma AudioHeaderRecorded(st: Producer.Stream, fh: seq<uint8>, payload: seq<uint8>, s: Consumer.Session)
    requires st.mediaType == Audio && IsAudioCodec(st.codec)
    ensures var f := Consumer.RecordAudio(s, OneFrameBytes(st, fh, payload)).format;
      && CodecType(f.audioCodec) == CodecType(st.codec) && IsAudioCodec(f.audioCodec)
      && f.channels == Low8(st.channels)
      && f.sampleRate == st.sampleRate % TWO_16 && f.frameSize == st.frameSize % TWO_16
      && f.audioTimeBase == Rational(st.frameSize % TWO_16, st.sampleRate % TWO_16)
  {
    var chunk := OneFrameBytes(st, fh, payload);
    var bytes := Producer.StreamHeaderBytes(st);
    assert chunk[..|bytes|] == bytes;
    WriteOfPrefix(chunk, bytes);
    assert Producer.AudioHeaderFill(chunk, st) == chunk;
    CodecRoundTrip(st.codec);
  }

  /**
   * The consumer's video time base is the producer's `get_new_tb`: both are
   * the inverse of the average frame rate, when that rate fits the header's
   * 16-bit fields and is non-zero.
   */
  lemma VideoTimeBaseAgrees(st: Producer.Stream, fh: seq<uint8>, payload: seq<uint8>, s: Consumer.Session)
    requires st.mediaType == Video && IsVideoCodec(st.codec)
    requires 0 < st.avgFrameRate.num < TWO_16 && 0 < st.avgFrameRate.den < TWO_16
    ensures Consumer.RecordVideo(s, OneFrameBytes(st, fh, payload)).format.videoTimeBase == Producer.GetNewTb(st)
  {
    VideoHeaderRecorded(st, fh, payload, s);
  }

  /**
   * The consumer's audio time base is the producer's `get_new_tb`: one audio
   * frame, frame size over sample rate, when both fit the header's 16-bit fields.
   */
  lemma AudioTimeBaseAgrees(st: Producer.Stream, fh: seq<uint8>, payload: seq<uint8>, s: Consumer.Session)
    requires st.mediaType == Audio && IsAudioCodec(st.codec)
    requires 0 <= st.frameSize < TWO_16 && 0 <= st.sampleRate < TWO_16
    ensures Consumer.RecordAudio(s, OneFrameBytes(st, fh, payload)).format.audioTimeBase == Producer.GetNewTb(st)
  {
    AudioHeaderRecorded(st, fh, payload, s);
  }

  /** The consumer's loop over two frames reads the headers at `q` and `q + 8`. */
  lemma HeadersOfTwo(data: seq<uint8>, q: nat)
    requires q + 2 * FrameHeaderSize <= |data|
    ensures Consumer.HeadersFrom(data, q, 2) == [FrameHeaderParse(data, q), FrameHeaderParse(data, q + FrameHeaderSize)]
  {
    var h1 := FrameHeaderParse(data, q + FrameHeaderSize);
    assert Consumer.HeadersFrom(data, q + FrameHeaderSize, 1) == [h1] + Consumer.HeadersFrom(data, q + 2 * FrameHeaderSize, 0);
  }

  /** The payload slicing of two frames: both fit, only the first fits, or none does. */
  lemma SliceOfTwo(data: seq<uint8>, h0: FrameHeader, h1: FrameHeader, p: nat)
    requires Consumer.HeaderInRange(h0) && Consumer.HeaderInRange(h1)
    ensures p + h0.size + h1.size <= |data| ==>
      Consumer.SliceFrom(data, [h0, h1], p) ==
        [Consumer.ParsedFrame(h0, data[p..p + h0.size]), Consumer.ParsedFrame(h1, data[p + h0.size..p + h0.size + h1.size])]
    ensures p + h0.size <= |data| < p + h0.size + h1.size ==>
      Consumer.SliceFrom(data, [h0, h1], p) == [Consumer.ParsedFrame(h0, data[p..p + h0.size])]
  {
    assert [h0, h1][1..] == [h1] && [h1][1..] == [];
  }

  /**
   * Two frames in the producer's interleaved layout, each of one byte 7 with
   * no pts: the consumer reads the second frame header from the first payload
   * byte on, finds a size past the end and stops, and the one frame it keeps
   * has as payload the last byte of the second frame header instead of 7.
   */
  lemma TwoFrameLayoutMisread()
    ensures var f := EncodedFrame(FrameHeaderBytes(1, -1, 0), [7]);
      && Interleave([f, f]) == FrameHeaderBytes(1, -1, 0) + [7] + FrameHeaderBytes(1, -1, 0) + [7]
      && Consumer.ParseFrames(Interleave([f, f]), 0, 2) == [Consumer.ParsedFrame(FrameHeader(1, -1, 0), [NoPtsDelta])]
  {
    var fh := FrameHeaderBytes(1, -1, 0);
    var f := EncodedFrame(fh, [7]);
    assert fh == [0, 0, 1, 0, 0, 0, 0, 255];
    assert [f, f][1..] == [f] && [f][1..] == [];
    assert Interleave([f]) == fh + [7];
    ParseFrameHeaderBytes(1, -1, 0);
    assert [7 as uint8] + fh[..7] == [7, 0, 0, 1, 0, 0, 0, 0];
    MisreadHeaderSize();
    InterleavedPairMisread(fh, 7);
  }

  /**
   * Two copies of a one-byte frame laid out header, payload, header, payload:
   * when the eight bytes from the payload on announce more than the one byte
   * left, the consumer keeps one frame whose payload is the second header's
   * last byte.
   */
  lemma InterleavedPairMisread(fh: seq<uint8>, b: uint8)
    requires |fh| == FrameHeaderSize && FrameHeaderParse(fh, 0).size == 1
    requires FrameHeaderParse([b] + fh[..7], 0).size > 1
    ensures Consumer.ParseFrames(fh + [b] + fh + [b], 0, 2) == [Consumer.ParsedFrame(FrameHeaderParse(fh, 0), [fh[7]])]
  {
    var data := fh + [b] + fh + [b];
    assert data[..8] == fh && data[8..16] == [b] + fh[..7] && data[16..17] == [fh[7]];
    ParseAt(data, 0, fh);
    ParseAt(data, 8, [b] + fh[..7]);
    HeadersOfTwo(data, 0);
    SliceOfTwo(data, FrameHeaderParse(data, 0), FrameHeaderParse(data, 8), 16);
  }

  /** The header the consumer reads from the payload byte 7 and the next seven header bytes announces a 458752-byte payload. */
  lemma MisreadHeaderSize()
    ensures FrameHeaderParse([7, 0, 0, 1, 0, 0, 0, 0], 0).size == 7 * TWO_16
  {
  }

  /** The consumer's own layout, all headers and then all payloads, is read back intact for the same two frames. */
  lemma TwoFrameGroupedReadBack()
    ensures var f := EncodedFrame(FrameHeaderBytes(1, -1, 0), [7]);
      Consumer.ParseFrames(Grouped([f, f]), 0, 2) ==
        [Consumer.ParsedFrame(FrameHeader(1, -1, 0), [7]), Consumer.ParsedFrame(FrameHeader(1, -1, 0), [7])]
  {
    var fh := FrameHeaderBytes(1, -1, 0);
    var f := EncodedFrame(fh, [7]);
    assert [f, f][1..] == [f] && [f][1..] == [];
    var data := Grouped([f, f]);
    assert Headers([f]) == fh && Payloads([f]) == [7];
    assert data == fh + fh + [7, 7];
    assert data[..8] == fh && data[8..16] == fh && data[16..17] == [7] && data[17..18] == [7];
    ParseAt(data, 0, fh);
    ParseAt(data, 8, fh);
    ParseFrameHeaderBytes(1, -1, 0);
    HeadersOfTwo(data, 0);
    SliceOfTwo(data, FrameHeader(1, -1, 0), FrameHeader(1, -1, 0), 16);
  }
}

=== FILE: int_coding.dfy ===
/**
 * The integer codecs of int_coding.h, which is not part of this model. They
 * are modelled as the network-order (big-endian) encodings the rest of the
 * code relies on: `int_cpy` stores the low 32 bits of its argument, most
 * significant byte first, and `int_rcpy` reads them back as an unsigned
 * value; `int16_cpy` and `int16_rcpy` do the same with 16 bits.
 */
module IntCoding {
  import opened Bytes

  /** `int16_cpy`: the value truncated to 16 bits, most significant byte first. */
  function Int16Cpy(v: int): (r: seq<uint8>)
    ensures |r| == 2
  {
    [Low8(v / TWO_8), Low8(v)]
  }

  /** `int16_rcpy`: two bytes read as an unsigned big-endian number. */
  function Int16Rcpy(b: seq<uint8>, off: nat): (r: int)
    requires off + 2 <= |b|
    ensures 0 <= r < TWO_16
  {
    (b[off] as int) * 0x100 + b[off + 1]
  }

  /** `int_cpy`: the value truncated to 32 bits, most significant byte first. */
  function IntCpy(v: int): (r: seq<uint8>)
    ensures |r| == 4
  {
    [Low8(v / TWO_24), Low8(v / TWO_16), Low8(v / TWO_8), Low8(v)]
  }

  /** `int_rcpy`: four bytes read as an unsigned big-endian number. */
  function IntRcpy(b: seq<uint8>, off: nat): (r: int)
    requires off + 4 <= |b|
    ensures 0 <= r < TWO_32
  {
    (((b[off] as int) * 0x100 + b[off + 1]) * 0x100 + b[off + 2]) * 0x100 + b[off + 3]
  }

  /** Reading back a 16-bit store yields the stored value modulo 2^16. */
  lemma Int16RoundTrip(v: int, buf: seq<uint8>, off: nat)
    requires off + 2 <= |buf| && buf[off..off + 2] == Int16Cpy(v)
    ensures Int16Rcpy(buf, off) == v % TWO_16
  {
    assert buf[off] == Int16Cpy(v)[0] && buf[off + 1] == Int16Cpy(v)[1];
  }

  /** Reading back a 32-bit store yields the stored value modulo 2^32. */
  lemma IntRoundTrip(v: int, buf: seq<uint8>, off: nat)
    requires off + 4 <= |buf| && buf[off..off + 4] == IntCpy(v)
    ensures IntRcpy(buf, off) == v % TWO_32
  {
    var e := IntCpy(v);
    assert buf[off] == e[0] && buf[off + 1] == e[1] && buf[off + 2] == e[2] && buf[off + 3] == e[3];
    var q := v / TWO_8;
    var q2 := q / TWO_8;
    var q3 := q2 / TWO_8;
    assert v / TWO_16 == q2;
    assert v / TWO_24 == q3;
  }
}

=== FILE: libav.dfy ===
/**
 * The few libav types the chunkiser and the player exchange with the media
 * library: codec identifiers, rational time bases and packets. Only their
 * values matter here; the library itself is not part of this model.
 */
module Libav {
  import opened Bytes

  /** The kind of an elementary stream (`AVMEDIA_TYPE_*`); anything but audio or video is `OtherMedia`. */
  datatype MediaType = Video | Audio | OtherMedia

  /** `enum CodecID`: the codecs the wire-code table knows, `NoCodec` (`CODEC_ID_NONE`, 0) and the rest. */
  datatype CodecID =
    | NoCodec
    | Mpeg1Video | Mpeg2Video | H261 | H263 | H263P | MJpeg | Mpeg4 | Flv1 | Svq3
    | DvVideo | H264 | Theora | Vp3 | Snow | Vp6 | Dirac
    | Mp2 | Mp3 | Aac | Ac3 | Vorbis
    | OtherCodec(id: int)

  /** `AVRational` */
  datatype Rational = Rational(num: int, den: int)

  /** `AV_TIME_BASE_Q`: microseconds. */
  const AvTimeBaseQ: Rational := Rational(1, 1000000)

  /** `AV_NOPTS_VALUE`: the timestamp of a packet whose timestamp is unknown. */
  const NoPtsValue: int := -0x8000_0000_0000_0000

  /** `AVPacket`: the payload, its stream index and its timestamps; `size` is `|data|`. */
  datatype Packet = Packet(streamIndex: int, data: seq<uint8>, pts: int, dts: int)

  /** `av_rescale_q(a, from, to)`: rescales a timestamp between time bases; passed in as an uninterpreted function. */
  type Rescale = (int, Rational, Rational) -> int

  /** `av_rescale_q(a, from, to)`, computed by the supplied rescaling. */
  function RescaleQ(rescale: Rescale, a: int, from: Rational, to: Rational): int {
    rescale(a, from, to)
  }
}

=== FILE: packet_queue.dfy ===
/**
 * `struct PacketQueue` of output-stream-play.c: a singly linked FIFO of
 * packets with a length counter. The list is modelled by the sequence of its
 * elements, head first; `length` is kept as a separate field because the C
 * maintains it separately from the links.
 */
module PacketQueue {
  import opened Wrappers

  datatype Queue<T> = Queue(items: seq<T>, length: int)

  /** The zero-filled queue of a freshly `memset` context. */
  function Empty<T>(): (q: Queue<T>)
    ensures Inv(q) && q.items == []
  {
    Queue([], 0)
  }

  /** The counter agrees with the number of linked packets. */
  predicate Inv<T>(q: Queue<T>) {
    q.length == |q.items|
  }

  /** `enqueue`: link the packet after the tail and count it (an allocation failure is not modelled). */
  function Enqueue<T>(q: Queue<T>, x: T): (r: Queue<T>)
    ensures |r.items| == |q.items| + 1 && r.items[..|q.items|] == q.items && r.items[|q.items|] == x
    ensures r.length == q.length + 1
    ensures Inv(q) ==> Inv(r)
  {
    Queue(q.items + [x], q.length + 1)
  }

  /**
   * `dequeue`: unlink and return the head and uncount it. On an empty queue the
   * C returns an uninitialised packet and changes nothing; that packet is None
   * here.
   */
  function Dequeue<T>(q: Queue<T>): (r: (Option<T>, Queue<T>))
    ensures q.items == [] ==> r.0.None? && r.1 == q
    ensures q.items != [] ==> r.0.Some? && [r.0.value] + r.1.items == q.items && r.1.length == q.length - 1
    ensures Inv(q) ==> Inv(r.1)
  {
    if q.items == [] then (None, q) else (Some(q.items[0]), Queue(q.items[1..], q.length - 1))
  }

  /** Enqueue every element of `xs`, first to last. */
  function EnqueueAll<T>(q: Queue<T>, xs: seq<T>): Queue<T>
    decreases |xs|
  {
    if xs == [] then q else EnqueueAll(Enqueue(q, xs[0]), xs[1..])
  }

  /** The first `n` values `dequeue` returns, in order. */
  function DequeueN<T>(q: Queue<T>, n: nat): seq<T>
    requires n <= |q.items|
    decreases n
  {
    if n == 0 then [] else var r := Dequeue(q); [r.0.value] + DequeueN(r.1, n - 1)
  }

  /** Enqueueing `xs` keeps the counter right and appends `xs` after what was queued. */
  lemma {:induction false} EnqueueAllAppends<T>(q: Queue<T>, xs: seq<T>)
    ensures EnqueueAll(q, xs).items == q.items + xs
    ensures EnqueueAll(q, xs).length == q.length + |xs|
    decreases |xs|
  {
    if xs != [] {
      EnqueueAllAppends(Enqueue(q, xs[0]), xs[1..]);
      assert q.items + [xs[0]] + xs[1..] == q.items + xs;
    }
  }

  /** `dequeue` hands the elements out in queue order. */
  lemma {:induction false} DequeueNPrefix<T>(q: Queue<T>, n: nat)
    requires n <= |q.items|
    ensures DequeueN(q, n) == q.items[..n]
    decreases n
  {
    if n > 0 {
      var r := Dequeue(q);
      DequeueNPrefix(r.1, n - 1);
      assert q.items[..n] == [r.0.value] + r.1.items[..n - 1];
    }
  }

  /** FIFO: after enqueueing `xs` on a queue, dequeueing returns the old contents and then `xs`, in the order they were enqueued. */
  lemma FifoOrder<T>(q: Queue<T>, xs: seq<T>)
    ensures |EnqueueAll(q, xs).items| == |q.items| + |xs|
    ensures DequeueN(EnqueueAll(q, xs), |q.items| + |xs|) == q.items + xs
  {
    EnqueueAllAppends(q, xs);
    DequeueNPrefix(EnqueueAll(q, xs), |q.items| + |xs|);
  }

  /**
   * The loop that empties a queue once the player stops: dequeue while
   * `length` is non-zero. It returns every queued element in order and leaves
   * the queue empty.
   */
  method Drain<T>(q: Queue<T>) returns (out: seq<T>, rest: Queue<T>)
    requires Inv(q)
    ensures out == q.items
    ensures rest.items == [] && rest.length == 0
  {
    out := [];
    rest := q;
    while rest.length != 0
      invariant Inv(rest)
      invariant out + rest.items == q.items
      decreases rest.length
    {
      var r := Dequeue(rest);
      out := out + [r.0.value];
      rest := r.1;
    }
  }
}

=== FILE: payload.dfy ===
/**
 * The chunk wire format of payload.h: the per-chunk stream headers (video and
 * audio), the per-frame header, and the per-packet headers of the UDP and RTP
 * chunkisers. Each `...Write` stores into a buffer at a fixed position and
 * leaves every other byte alone; each `...Parse` reads the same fields back.
 */
module Payload {
  import opened Bytes
  import opened IntCoding

  /** codec + channels + sample rate + frame size + frame count */
  const AudioPayloadHeaderSize: nat := 1 + 1 + 2 + 2 + 1
  /** codec + width + height + frame-rate numerator + denominator + frame count */
  const VideoPayloadHeaderSize: nat := 1 + 2 + 2 + 2 + 2 + 1
  /** 24-bit size + 32-bit dts + pts-dts delta */
  const FrameHeaderSize: nat := 3 + 4 + 1
  const UdpPayloadHeaderSize: nat := 2 + 1
  const RtpPayloadPerPktHeaderSize: nat := 2 + 1

  /** The delta byte that stands for "no pts". */
  const NoPtsDelta: uint8 := 255

  /** The fields `frame_header_parse` returns; `pts == -1` means "no pts". */
  datatype FrameHeader = FrameHeader(size: int, pts: int, dts: int)

  datatype AudioHeader = AudioHeader(codec: uint8, channels: uint8, sampleRate: int, frameSize: int)

  datatype VideoHeader = VideoHeader(codec: uint8, width: int, height: int, frameRateNum: int, frameRateDen: int)

  /** The packet size and stream byte of a UDP or RTP per-packet header. */
  datatype PacketHeader = PacketHeader(size: int, stream: uint8)

  /** The pts an 8-byte frame header yields for a writer's `pts`/`dts` pair: absent, or the wire dts plus the delta byte. */
  function WirePts(pts: int32, dts: int32): int {
    if pts == -1 || Low8(pts - dts) == NoPtsDelta then -1 else dts % TWO_32 + Low8(pts - dts)
  }

  /** The eight bytes `frame_header_write` stores. */
  function FrameHeaderBytes(size: int, pts: int32, dts: int32): (r: seq<uint8>)
    ensures |r| == FrameHeaderSize
  {
    [Low8(size / TWO_16), Low8(size / TWO_8), Low8(size)]
    + IntCpy(dts)
    + [if pts != -1 then Low8(pts - dts) else NoPtsDelta]
  }

  /** `frame_header_parse` on the eight bytes at `off`. */
  function FrameHeaderParse(data: seq<uint8>, off: nat): (h: FrameHeader)
    requires off + FrameHeaderSize <= |data|
    ensures 0 <= h.size < TWO_24 && 0 <= h.dts < TWO_32
    ensures h.pts == -1 <==> data[off + 7] == NoPtsDelta
    ensures h.pts != -1 ==> 0 <= h.pts - h.dts < NoPtsDelta
  {
    var size := ((data[off] as int) * 0x100 + data[off + 1]) * 0x100 + data[off + 2];
    var dts := IntRcpy(data, off + 3);
    FrameHeader(size, if data[off + 7] != NoPtsDelta then dts + data[off + 7] else -1, dts)
  }

  /**
   * `frame_header_write` at offset `off`. Parsing the result gives back the
   * size modulo 2^24, the dts modulo 2^32 and, unless the pts is absent or its
   * delta is 255 modulo 256, the wire dts plus (pts - dts) modulo 256.
   */
  function FrameHeaderWrite(data: seq<uint8>, off: nat, size: int, pts: int32, dts: int32): (r: seq<uint8>)
    requires off + FrameHeaderSize <= |data|
    ensures |r| == |data|
    ensures r[..off] == data[..off] && r[off + FrameHeaderSize..] == data[off + FrameHeaderSize..]
    ensures FrameHeaderParse(r, off) == FrameHeader(size % TWO_24, WirePts(pts, dts), dts % TWO_32)
  {
    var bytes := FrameHeaderBytes(size, pts, dts);
    var r := Write(data, off, bytes);
    ParseAt(r, off, bytes);
    ParseFrameHeaderBytes(size, pts, dts);
    r
  }

  /** The parse of a frame header depends only on its eight bytes. */
  lemma ParseAt(data: seq<uint8>, off: nat, bytes: seq<uint8>)
    requires off + FrameHeaderSize <= |data| && data[off..off + FrameHeaderSize] == bytes
    ensures FrameHeaderParse(data, off) == FrameHeaderParse(bytes, 0)
  {
    forall k | 0 <= k < FrameHeaderSize ensures data[off + k] == bytes[k] {
      assert data[off..off + FrameHeaderSize][k] == data[off + k];
    }
  }

  lemma ParseFrameHeaderBytes(size: int, pts: int32, dts: int32)
    ensures FrameHeaderParse(FrameHeaderBytes(size, pts, dts), 0) == FrameHeader(size % TWO_24, WirePts(pts, dts), dts % TWO_32)
  {
    var bytes := FrameHeaderBytes(size, pts, dts);
    Size24RoundTrip(size);
    assert bytes[3..7] == IntCpy(dts);
    IntRoundTrip(dts, bytes, 3);
  }

  lemma Size24RoundTrip(size: int)
    ensures (Low8(size / TWO_16) * TWO_8 + Low8(size / TWO_8)) * TWO_8 + Low8(size) == size % TWO_24
  {
    var q := size / TWO_8;
    var q2 := q / TWO_8;
    assert size / TWO_16 == q2;
  }

  /** A size below 2^24, a non-negative dts and a delta in [0, 254] come back exactly. */
  lemma FrameHeaderRoundTrip(data: seq<uint8>, off: nat, size: int, pts: int32, dts: int32)
    requires off + FrameHeaderSize <= |data|
    requires 0 <= size < TWO_24 && 0 <= dts && 0 <= pts - dts < NoPtsDelta
    ensures FrameHeaderParse(FrameHeaderWrite(data, off, size, pts, dts), off) == FrameHeader(size, pts, dts)
  {
    assert size % TWO_24 == size;
    assert dts % TWO_32 == dts;
    assert Low8(pts - dts) == pts - dts;
    assert WirePts(pts, dts) == dts + (pts - dts);
  }

  /** "No pts" and a delta of 255 modulo 256 are written as the same byte and both parse as an absent pts. */
  lemma DeltaAmbiguity(data: seq<uint8>, off: nat, size: int, pts: int32, dts: int32)
    requires off + FrameHeaderSize <= |data|
    requires pts != -1 && (pts - dts) % TWO_8 == NoPtsDelta
    ensures FrameHeaderWrite(data, off, size, pts, dts)[off + 7] == FrameHeaderWrite(data, off, size, -1, dts)[off + 7]
    ensures FrameHeaderParse(FrameHeaderWrite(data, off, size, pts, dts), off).pts == -1
  {
    var r := FrameHeaderWrite(data, off, size, pts, dts);
    var r' := FrameHeaderWrite(data, off, size, -1, dts);
    assert r[off..off + FrameHeaderSize] == FrameHeaderBytes(size, pts, dts);
    assert r'[off..off + FrameHeaderSize] == FrameHeaderBytes(size, -1, dts);
    assert r[off + 7] == FrameHeaderBytes(size, pts, dts)[7];
    assert r'[off + 7] == FrameHeaderBytes(size, -1, dts)[7];
  }

  /** The six bytes `audio_payload_header_write` stores. */
  function AudioHeaderBytes(codec: uint8, channels: int, sampleRate: int, frameSize: int): (r: seq<uint8>)
    ensures |r| == AudioPayloadHeaderSize - 1
  {
    [codec, Low8(channels)] + Int16Cpy(sampleRate) + Int16Cpy(frameSize)
  }

  function AudioPayloadHeaderParse(data: seq<uint8>): (h: AudioHeader)
    requires |data| >= AudioPayloadHeaderSize - 1
    ensures h.codec == data[0]
    ensures 0 <= h.sampleRate < TWO_16 && 0 <= h.frameSize < TWO_16
  {
    AudioHeader(data[0], data[1], Int16Rcpy(data, 2), Int16Rcpy(data, 4))
  }

  /**
   * `audio_payload_header_write`: bytes 0-5 only, so the frame-count byte 6 and
   * everything after it are untouched; parsing gives back the codec, the
   * channel count modulo 256 and the two rates modulo 2^16.
   */
  function AudioPayloadHeaderWrite(data: seq<uint8>, codec: uint8, channels: int, sampleRate: int, frameSize: int): (r: seq<uint8>)
    requires |data| >= AudioPayloadHeaderSize - 1
    ensures |r| == |data|
    ensures r[AudioPayloadHeaderSize - 1..] == data[AudioPayloadHeaderSize - 1..]
    ensures AudioPayloadHeaderParse(r) == AudioHeader(codec, Low8(channels), sampleRate % TWO_16, frameSize % TWO_16)
  {
    var bytes := AudioHeaderBytes(codec, channels, sampleRate, frameSize);
    var r := Write(data, 0, bytes);
    assert r[..6] == bytes;
    assert r[0] == bytes[0] && r[1] == bytes[1];
    assert r[2..4] == Int16Cpy(sampleRate) by { assert r[2..4] == bytes[2..4]; }
    assert r[4..6] == Int16Cpy(frameSize) by { assert r[4..6] == bytes[4..6]; }
    Int16RoundTrip(sampleRate, r, 2);
    Int16RoundTrip(frameSize, r, 4);
    r
  }

  /** The nine bytes `video_payload_header_write` stores. */
  function VideoHeaderBytes(codec: uint8, width: int, height: int, num: int, den: int): (r: seq<uint8>)
    ensures |r| == VideoPayloadHeaderSize - 1
  {
    [codec] + Int16Cpy(width) + Int16Cpy(height) + Int16Cpy(num) + Int16Cpy(den)
  }

  function VideoPayloadHeaderParse(data: seq<uint8>): (h: VideoHeader)
    requires |data| >= VideoPayloadHeaderSize - 1
    ensures h.codec == data[0]
    ensures 0 <= h.width < TWO_16 && 0 <= h.height < TWO_16
    ensures 0 <= h.frameRateNum < TWO_16 && 0 <= h.frameRateDen < TWO_16
  {
    VideoHeader(data[0], Int16Rcpy(data, 1), Int16Rcpy(data, 3), Int16Rcpy(data, 5), Int16Rcpy(data, 7))
  }

  /**
   * `video_payload_header_write`: bytes 0-8 only, so the frame-count byte 9 and
   * everything after it are untouched; parsing gives back the codec and the
   * four 16-bit fields modulo 2^16.
   */
  function VideoPayloadHeaderWrite(data: seq<uint8>, codec: uint8, width: int, height: int, num: int, den: int): (r: seq<uint8>)
    requires |data| >= VideoPayloadHeaderSize - 1
    ensures |r| == |data|
    ensures r[VideoPayloadHeaderSize - 1..] == data[VideoPayloadHeaderSize - 1..]
    ensures VideoPayloadHeaderParse(r) == VideoHeader(codec, width % TWO_16, height % TWO_16, num % TWO_16, den % TWO_16)
  {
    var bytes := VideoHeaderBytes(codec, width, height, num, den);
    var r := Write(data, 0, bytes);
    assert r[..9] == bytes;
    assert r[0] == bytes[0];
    assert r[1..3] == Int16Cpy(width) by { assert r[1..3] == bytes[1..3]; }
    assert r[3..5] == Int16Cpy(height) by { assert r[3..5] == bytes[3..5]; }
    assert r[5..7] == Int16Cpy(num) by { assert r[5..7] == bytes[5..7]; }
    assert r[7..9] == Int16Cpy(den) by { assert r[7..9] == bytes[7..9]; }
    Int16RoundTrip(width, r, 1);
    Int16RoundTrip(height, r, 3);
    Int16RoundTrip(num, r, 5);
    Int16RoundTrip(den, r, 7);
    r
  }

  function UdpPayloadHeaderParse(data: seq<uint8>): (h: PacketHeader)
    requires |data| >= UdpPayloadHeaderSize
    ensures 0 <= h.size < TWO_16 && h.stream == data[2]
  {
    PacketHeader(Int16Rcpy(data, 0), data[2])
  }

  /** `udp_payload_header_write`: a size below 2^16 and the stream byte come back from the parse. */
  function UdpPayloadHeaderWrite(data: seq<uint8>, size: int, stream: uint8): (r: seq<uint8>)
    requires |data| >= UdpPayloadHeaderSize
    ensures |r| == |data| && r[UdpPayloadHeaderSize..] == data[UdpPayloadHeaderSize..]
    ensures UdpPayloadHeaderParse(r) == PacketHeader(size % TWO_16, stream)
  {
    var r := Write(data, 0, Int16Cpy(size) + [stream]);
    assert r[..3] == Int16Cpy(size) + [stream];
    assert r[..2] == Int16Cpy(size) && r[2] == stream;
    Int16RoundTrip(size, r, 0);
    r
  }

  function RtpPayloadPerPktHeaderParse(data: seq<uint8>): (h: PacketHeader)
    requires |data| >= RtpPayloadPerPktHeaderSize
    ensures 0 <= h.size < TWO_16 && h.stream == data[2]
  {
    PacketHeader(Int16Rcpy(data, 0), data[2])
  }

  /** `rtp_payload_per_pkt_header_set`: the 16-bit size and the stream byte come back from the parse. */
  function RtpPayloadPerPktHeaderSet(data: seq<uint8>, size: int, stream: uint8): (r: seq<uint8>)
    requires |data| >= RtpPayloadPerPktHeaderSize && 0 <= size < TWO_16
    ensures |r| == |data| && r[RtpPayloadPerPktHeaderSize..] == data[RtpPayloadPerPktHeaderSize..]
    ensures RtpPayloadPerPktHeaderParse(r) == PacketHeader(size, stream)
  {
    var r := Write(data, 0, Int16Cpy(size) + [stream]);
    assert r[..3] == Int16Cpy(size) + [stream];
    assert r[..2] == Int16Cpy(size) && r[2] == stream;
    Int16RoundTrip(size, r, 0);
    r
  }
}

=== FILE: playout.dfy ===
/**
 * The playout-delay controller of `synchronise` (output-stream-play.c). A
 * frame's slack is how far ahead of the wall clock its presentation time
 * is; after `cLimit` late frames in a row the playout delay grows by the
 * worst lateness seen in that streak. The clock reading is a parameter and
 * the sleep is left out.
 */
module Playout {

  /** The controller fields of `struct dechunkiser_ctx`, all 64-bit in the C. */
  datatype Clock = Clock(t0: int, pts0: int, playoutDelay: int, cLimit: int, consLate: int, maxDelay: int)

  /** The controller's invariant: the worst lateness is never positive and the late streak stays below the limit. */
  predicate Inv(c: Clock) {
    && c.cLimit > 0
    && 0 <= c.consLate < c.cLimit
    && c.maxDelay <= 0
  }

  /** The sum `t0 + playout_delay - pts0` that turns a presentation time into a wall-clock deadline. */
  function Anchor(c: Clock): int {
    c.t0 + c.playoutDelay - c.pts0
  }

  /** `difft`: how long before its deadline the frame with timestamp `pts` is at time `now`; negative when late. */
  function Slack(c: Clock, pts: int, now: int): (d: int)
    ensures d == (pts + Anchor(c)) - now
  {
    pts - c.pts0 + c.t0 + c.playoutDelay - now
  }

  /**
   * `synchronise`: count a late frame and remember the worst lateness, or reset
   * both on an on-time frame; on reaching `cLimit` late frames, add the worst
   * lateness to the playout delay and start over. Returns the new controller
   * and `difft`.
   */
  function Synchronise(c: Clock, pts: int, now: int): (r: (Clock, int))
    requires Inv(c)
    ensures r.1 == Slack(c, pts, now)
    ensures Inv(r.0)
    ensures r.0.t0 == c.t0 && r.0.pts0 == c.pts0 && r.0.cLimit == c.cLimit
    ensures r.0.playoutDelay >= c.playoutDelay
    ensures r.1 >= 0 ==> r.0 == c.(consLate := 0, maxDelay := 0)
    ensures r.1 < 0 && c.consLate + 1 < c.cLimit ==>
      r.0 == c.(consLate := c.consLate + 1, maxDelay := if r.1 < c.maxDelay then r.1 else c.maxDelay)
    ensures r.1 < 0 && c.consLate + 1 == c.cLimit ==>
      r.0 == c.(playoutDelay := c.playoutDelay - (if r.1 < c.maxDelay then r.1 else c.maxDelay), consLate := 0, maxDelay := 0)
    ensures r.0.playoutDelay > c.playoutDelay <==> r.1 < 0 && c.consLate + 1 == c.cLimit
  {
    var difft := pts - c.pts0 + c.t0 + c.playoutDelay - now;
    var counted :=
      if difft < 0 then c.(consLate := c.consLate + 1, maxDelay := if difft < c.maxDelay then difft else c.maxDelay)
      else c.(consLate := 0, maxDelay := 0);
    var adjusted :=
      if counted.consLate >= counted.cLimit then counted.(playoutDelay := counted.playoutDelay - counted.maxDelay, consLate := 0, maxDelay := 0)
      else counted;
    (adjusted, difft)
  }

  /** A frame presented at `now` with timestamp `pts`. */
  datatype Tick = Tick(pts: int, now: int)

  /** `synchronise` called for each tick in turn. */
  function Run(c: Clock, ts: seq<Tick>): (r: Clock)
    requires Inv(c)
    ensures Inv(r) && r.cLimit == c.cLimit
    decreases |ts|
  {
    if ts == [] then c else Run(Synchronise(c, ts[0].pts, ts[0].now).0, ts[1..])
  }

  /** The smallest of `m` and the slacks of the ticks against a fixed anchor. */
  function MinSlack(m: int, anchor: int, ts: seq<Tick>): (r: int)
    ensures r <= m
    ensures forall i | 0 <= i < |ts| :: r <= ts[i].pts + anchor - ts[i].now
    decreases |ts|
  {
    if ts == [] then m
    else
      var d := ts[0].pts + anchor - ts[0].now;
      MinSlack(if d < m then d else m, anchor, ts[1..])
  }

  /** Every tick is late against the anchor. */
  predicate AllLate(anchor: int, ts: seq<Tick>) {
    forall i | 0 <= i < |ts| :: ts[i].pts + anchor - ts[i].now < 0
  }

  /**
   * A streak of late frames that stays below the limit leaves the delay alone,
   * adds its length to the late count and lowers the worst lateness to the
   * streak's minimum slack.
   */
  lemma {:induction false} LateStreak(c: Clock, ts: seq<Tick>)
    requires Inv(c) && c.consLate + |ts| < c.cLimit && AllLate(Anchor(c), ts)
    ensures Run(c, ts) == c.(consLate := c.consLate + |ts|, maxDelay := MinSlack(c.maxDelay, Anchor(c), ts))
    decreases |ts|
  {
    if ts != [] {
      var c' := Synchronise(c, ts[0].pts, ts[0].now).0;
      assert Anchor(c') == Anchor(c);
      assert AllLate(Anchor(c), ts[1..]) by {
        forall i | 0 <= i < |ts[1..]| ensures ts[1..][i].pts + Anchor(c) - ts[1..][i].now < 0 {
          assert ts[1..][i] == ts[i + 1];
        }
      }
      LateStreak(c', ts[1..]);
    }
  }

  /**
   * From a reset controller, `cLimit` late frames in a row raise the playout
   * delay by exactly the worst lateness among them and reset the counters.
   */
  lemma LimitRaisesDelay(c: Clock, ts: seq<Tick>)
    requires Inv(c) && c.consLate == 0 && c.maxDelay == 0
    requires |ts| == c.cLimit && AllLate(Anchor(c), ts)
    ensures Run(c, ts) == c.(playoutDelay := c.playoutDelay - MinSlack(0, Anchor(c), ts))
    ensures Run(c, ts).playoutDelay > c.playoutDelay
  {
    var n := |ts| - 1;
    var front := ts[..n];
    assert AllLate(Anchor(c), front) by {
      forall i | 0 <= i < |front| ensures front[i].pts + Anchor(c) - front[i].now < 0 {
        assert front[i] == ts[i];
      }
    }
    LateStreak(c, front);
    RunSnoc(c, front, ts[n]);
    assert front + [ts[n]] == ts;
    MinSlackSnoc(0, Anchor(c), front, ts[n]);
  }

  /** Running one more tick after a run. */
  lemma {:induction false} RunSnoc(c: Clock, ts: seq<Tick>, t: Tick)
    requires Inv(c)
    ensures Run(c, ts + [t]) == var d := Run(c, ts); Synchronise(d, t.pts, t.now).0
    decreases |ts|
  {
    if ts == [] {
      assert [t][1..] == [];
    } else {
      assert (ts + [t])[1..] == ts[1..] + [t];
      RunSnoc(Synchronise(c, ts[0].pts, ts[0].now).0, ts[1..], t);
    }
  }

  /** The minimum over one more tick. */
  lemma {:induction false} MinSlackSnoc(m: int, anchor: int, ts: seq<Tick>, t: Tick)
    ensures MinSlack(m, anchor, ts + [t]) ==
      var a := MinSlack(m, anchor, ts); var d := t.pts + anchor - t.now; if d < a then d else a
    decreases |ts|
  {
    if ts == [] {
      assert [t][1..] == [];
    } else {
      assert (ts + [t])[1..] == ts[1..] + [t];
      var d := ts[0].pts + anchor - ts[0].now;
      MinSlackSnoc(if d < m then d else m, anchor, ts[1..], t);
    }
  }

  /** Over any sequence of frames the playout delay never shrinks. */
  lemma {:induction false} DelayNeverShrinks(c: Clock, ts: seq<Tick>)
    requires Inv(c)
    ensures Run(c, ts).playoutDelay >= c.playoutDelay
    decreases |ts|
  {
    if ts != [] {
      DelayNeverShrinks(Synchronise(c, ts[0].pts, ts[0].now).0, ts[1..]);
    }
  }
}

=== FILE: producer.dfy ===
/**
 * The producer side of the chunk format (input-stream-avf.c): stream
 * selection at open time, the stream-header and frame-header fills, and
 * `avf_chunkise`, which appends one demuxed packet to the accumulator of its
 * media type and emits the chunk once `frames_max` frames are in.
 *
 * Everything the media library does is a parameter: the packet that
 * `av_read_frame` returned (or its failure), the result of `av_seek_frame`,
 * the bitstream filter and `av_rescale_q`.
 */
module Producer {
  import opened Wrappers
  import opened Bytes
  import opened Libav
  import opened Codecs
  import opened Payload
  import opened ChunkLayout

  const VFramesDefault: int := 1
  const AFramesDefault: int := 1

  /** What the chunkiser reads of an `AVStream` and its codec context. */
  datatype Stream = Stream(
    mediaType: MediaType, codec: CodecID,
    width: int, height: int,
    channels: int, sampleRate: int, frameSize: int,
    avgFrameRate: Rational, rFrameRate: Rational, timeBase: Rational)

  /** The configuration keys `avf_open` looks up, already parsed; `None` when a key is absent. */
  datatype Config = Config(loop: Option<int>, media: Option<string>, vframes: Option<int>, aframes: Option<int>)

  /**
   * One media type's chunk under construction: the number of frames in it and
   * the buffer (`chunksize` is the buffer's length; an empty buffer is NULL).
   */
  datatype Accumulator = Accumulator(frames: int, data: seq<uint8>)

  const EmptyAccumulator: Accumulator := Accumulator(0, [])

  /** `struct chunkiser_ctx` without the library handles; `selected` is the `streams` bitmask as a set of stream indices. */
  datatype Chunkiser = Chunkiser(
    streams: seq<Stream>, selected: set<int>, loop: int,
    lastTs: int, baseTs: int,
    vFramesMax: int, video: Accumulator,
    aFramesMax: int, audio: Accumulator)

  /** The outcome of `av_read_frame`. */
  datatype ReadResult = ReadOk(pkt: Packet) | ReadFailed(code: int)

  /** The results of one `avf_chunkise` call: the new context, the returned buffer, `*size` and `*ts` (None when not set). */
  datatype Output = Output(ctx: Chunkiser, chunk: Option<seq<uint8>>, size: int, ts: Option<int>)

  /** A bitstream filter applied to a packet's payload; None when it fails. */
  type Filter = (CodecID, seq<uint8>) -> Option<seq<uint8>>

  /*
   * Stream selection (avf_open)
   */

  /** The counters `video_streams`/`audio_streams` start at: 1 disables a media type. */
  function InitialCounts(media: Option<string>): (r: (int, int))
    ensures r.0 == 0 <==> media != Some("audio")
    ensures r.1 == 0 <==> media != Some("video")
    ensures 0 <= r.0 <= 1 && 0 <= r.1 <= 1
  {
    match media
    case None => (0, 0)
    case Some(m) =>
      if m == "audio" then (1, 0)
      else if m == "video" then (0, 1)
      else if m == "av" then (0, 0)
      else (0, 0)
  }

  /** The index of the first stream of type `t`. */
  function FirstIndex(types: seq<MediaType>, t: MediaType): (r: Option<nat>)
    ensures r.Some? ==> r.value < |types| && types[r.value] == t
    ensures r.Some? ==> forall j | 0 <= j < r.value :: types[j] != t
    ensures r.None? ==> forall j | 0 <= j < |types| :: types[j] != t
  {
    if types == [] then None
    else if types[0] == t then Some(0)
    else match FirstIndex(types[1..], t)
      case None => None
      case Some(k) => Some(k + 1)
  }

  lemma FirstIndexSnoc(types: seq<MediaType>, x: MediaType, t: MediaType)
    ensures FirstIndex(types + [x], t) ==
      (if FirstIndex(types, t).Some? then FirstIndex(types, t) else if x == t then Some(|types|) else None)
  {
    var s := types + [x];
    assert forall j | 0 <= j < |types| :: s[j] == types[j];
    assert s[|types|] == x;
  }

  function IndexSet(i: Option<nat>): set<int> {
    match i
    case None => {}
    case Some(k) => {k}
  }

  /** The indices `avf_open` sets in the `streams` mask. */
  function Selection(types: seq<MediaType>, media: Option<string>): set<int> {
    Picked(InitialCounts(media), types)
  }

  /** The first video index unless video starts out excluded, and the first audio index unless audio does. */
  function Picked(counts: (int, int), types: seq<MediaType>): set<int> {
    (if counts.0 == 0 then IndexSet(FirstIndex(types, Video)) else {})
    + (if counts.1 == 0 then IndexSet(FirstIndex(types, Audio)) else {})
  }

  /** One more stream adds its index exactly when it is the first of a type not excluded. */
  lemma PickedSnoc(counts: (int, int), types: seq<MediaType>, x: MediaType)
    ensures Picked(counts, types + [x]) == Picked(counts, types) +
      (if (x == Video && counts.0 == 0 && FirstIndex(types, Video).None?)
          || (x == Audio && counts.1 == 0 && FirstIndex(types, Audio).None?)
       then {|types|} else {})
  {
    FirstIndexSnoc(types, x, Video);
    FirstIndexSnoc(types, x, Audio);
  }

  function MediaTypes(streams: seq<Stream>): (types: seq<MediaType>)
    ensures |types| == |streams| && forall i | 0 <= i < |streams| :: types[i] == streams[i].mediaType
  {
    seq(|streams|, i requires 0 <= i < |streams| => streams[i].mediaType)
  }

  /**
   * The stream-mask loop of `avf_open`. At most one video and one audio index is
   * selected, each the first of its type; `media=audio` selects no video,
   * `media=video` no audio, and `av`, an unknown value or no value select both.
   */
  method SelectStreams(types: seq<MediaType>, media: Option<string>) returns (selected: set<int>)
    ensures selected == Selection(types, media)
    ensures forall i | i in selected :: 0 <= i < |types| && types[i] != OtherMedia
    ensures forall i, j | i in selected && j in selected && 0 <= i < |types| && 0 <= j < |types| :: types[i] == types[j] ==> i == j
    ensures forall i | i in selected && 0 <= i < |types| :: forall j | 0 <= j < i :: types[j] != types[i]
    ensures media == Some("audio") ==> forall i | i in selected && 0 <= i < |types| :: types[i] != Video
    ensures media == Some("video") ==> forall i | i in selected && 0 <= i < |types| :: types[i] != Audio
    ensures media != Some("audio") ==> forall i | 0 <= i < |types| && types[i] == Video :: exists j :: j in selected && 0 <= j < |types| && types[j] == Video
    ensures media != Some("video") ==> forall i | 0 <= i < |types| && types[i] == Audio :: exists j :: j in selected && 0 <= j < |types| && types[j] == Audio
  {
    var counts := InitialCounts(media);
    var videoStreams, audioStreams := counts.0, counts.1;
    selected := {};
    var i := 0;
    while i < |types|
      invariant 0 <= i <= |types|
      invariant videoStreams == 0 <==> counts.0 == 0 && FirstIndex(types[..i], Video).None?
      invariant audioStreams == 0 <==> counts.1 == 0 && FirstIndex(types[..i], Audio).None?
      invariant videoStreams >= 0 && audioStreams >= 0
      invariant selected == Picked(counts, types[..i])
    {
      assert types[..i + 1] == types[..i] + [types[i]];
      FirstIndexSnoc(types[..i], types[i], Video);
      FirstIndexSnoc(types[..i], types[i], Audio);
      PickedSnoc(counts, types[..i], types[i]);
      if types[i] == Video {
        if videoStreams == 0 {
          selected := selected + {i};
        }
        videoStreams := videoStreams + 1;
      }
      if types[i] == Audio {
        if audioStreams == 0 {
          selected := selected + {i};
        }
        audioStreams := audioStreams + 1;
      }
      i := i + 1;
    }
    assert types[..i] == types;
    SelectionShape(types, media);
  }

  lemma SelectionShape(types: seq<MediaType>, media: Option<string>)
    ensures var selected := Selection(types, media);
      && (forall i | i in selected :: 0 <= i < |types| && types[i] != OtherMedia)
      && (forall i, j | i in selected && j in selected && 0 <= i < |types| && 0 <= j < |types| :: types[i] == types[j] ==> i == j)
      && (forall i | i in selected && 0 <= i < |types| :: forall j | 0 <= j < i :: types[j] != types[i])
      && (media == Some("audio") ==> forall i | i in selected && 0 <= i < |types| :: types[i] != Video)
      && (media == Some("video") ==> forall i | i in selected && 0 <= i < |types| :: types[i] != Audio)
      && (media != Some("audio") ==> forall i | 0 <= i < |types| && types[i] == Video :: exists j :: j in selected && 0 <= j < |types| && types[j] == Video)
      && (media != Some("video") ==> forall i | 0 <= i < |types| && types[i] == Audio :: exists j :: j in selected && 0 <= j < |types| && types[j] == Audio)
  {
    var selected := Selection(types, media);
    var fv, fa := FirstIndex(types, Video), FirstIndex(types, Audio);
    forall i | 0 <= i < |types| && types[i] == Video && media != Some("audio")
      ensures exists j :: j in selected && 0 <= j < |types| && types[j] == Video
    {
      assert fv.Some?;
      assert fv.value in selected;
    }
    forall i | 0 <= i < |types| && types[i] == Audio && media != Some("video")
      ensures exists j :: j in selected && 0 <= j < |types| && types[j] == Audio
    {
      assert fa.Some?;
      assert fa.value in selected;
    }
  }

  /** The context `avf_open` builds from the opened input's streams and the configuration. */
  method Open(streams: seq<Stream>, config: Config) returns (c: Chunkiser)
    ensures Valid(c)
    ensures c.streams == streams && c.selected == Selection(MediaTypes(streams), config.media)
    ensures c.loop == config.loop.GetOr(0)
    ensures c.vFramesMax == config.vframes.GetOr(VFramesDefault) && c.aFramesMax == config.aframes.GetOr(AFramesDefault)
    ensures c.lastTs == 0 && c.baseTs == 0
    ensures c.video == EmptyAccumulator && c.audio == EmptyAccumulator
  {
    var selected := SelectStreams(MediaTypes(streams), config.media);
    c := Chunkiser(streams, selected, config.loop.GetOr(0), 0, 0,
                   config.vframes.GetOr(VFramesDefault), EmptyAccumulator,
                   config.aframes.GetOr(AFramesDefault), EmptyAccumulator);
  }

  /*
   * Invariants of the context
   */

  /** `get_header_size` */
  function HeaderSize(t: MediaType): nat
    requires t != OtherMedia
  {
    if t == Video then VideoPayloadHeaderSize else AudioPayloadHeaderSize
  }

  predicate AccValid(a: Accumulator, h: nat) {
    && a.frames >= 0
    && (a.frames == 0 ==> a.data == [])
    && (a.frames > 0 ==> |a.data| >= h + FrameHeaderSize)
  }

  /** Only audio and video streams are selected, and each accumulator is empty or holds at least its stream header and one frame header. */
  predicate Valid(c: Chunkiser) {
    && (forall i | i in c.selected :: 0 <= i < |c.streams| && c.streams[i].mediaType != OtherMedia)
    && AccValid(c.video, HeaderSize(Video))
    && AccValid(c.audio, HeaderSize(Audio))
  }

  function AccOf(c: Chunkiser, t: MediaType): Accumulator
    requires t != OtherMedia
  {
    if t == Video then c.video else c.audio
  }

  function FramesMaxOf(c: Chunkiser, t: MediaType): int
    requires t != OtherMedia
  {
    if t == Video then c.vFramesMax else c.aFramesMax
  }

  function WithAcc(c: Chunkiser, t: MediaType, a: Accumulator): Chunkiser
    requires t != OtherMedia
  {
    if t == Video then c.(video := a) else c.(audio := a)
  }

  /*
   * Header fills
   */

  /**
   * The frame rate `video_header_fill` writes: `avg_frame_rate`, or
   * `r_frame_rate` when the average's numerator is 0; a numerator above 2^16
   * has both terms divided by 1000 (C division).
   */
  function VideoRate(st: Stream): (rate: Rational)
    ensures var chosen := if st.avgFrameRate.num == 0 then st.rFrameRate else st.avgFrameRate;
      && (chosen.num <= TWO_16 ==> rate == chosen)
      && (chosen.num > TWO_16 ==> 1000 * rate.num <= chosen.num < 1000 * (rate.num + 1) && rate.den == CDiv(chosen.den, 1000))
  {
    var num := if st.avgFrameRate.num == 0 then st.rFrameRate.num else st.avgFrameRate.num;
    var den := if st.avgFrameRate.num == 0 then st.rFrameRate.den else st.avgFrameRate.den;
    if num > TWO_16 then Rational(CDiv(num, 1000), CDiv(den, 1000)) else Rational(num, den)
  }

  /** A numerator of exactly 2^16 escapes the scaling and is written as 0 by the 16-bit store. */
  lemma RateAt65536WrapsToZero(data: seq<uint8>, st: Stream)
    requires |data| >= VideoPayloadHeaderSize - 1
    requires st.avgFrameRate.num == TWO_16
    ensures VideoPayloadHeaderParse(VideoHeaderFill(data, st)).frameRateNum == 0
  {
  }

  /** The nine or six bytes of a stream's header before its frame-count byte. */
  function StreamHeaderBytes(st: Stream): (r: seq<uint8>)
    requires st.mediaType != OtherMedia
    ensures |r| == HeaderSize(st.mediaType) - 1
    ensures r[0] == CodecType(st.codec)
  {
    if st.mediaType == Video then
      var rate := VideoRate(st);
      VideoHeaderBytes(CodecType(st.codec), st.width, st.height, rate.num, rate.den)
    else
      AudioHeaderBytes(CodecType(st.codec), st.channels, st.sampleRate, st.frameSize)
  }

  /** `video_header_fill`: the consumer's parse sees the codec's wire code, the geometry and the chosen rate, each modulo 2^16. */
  function VideoHeaderFill(data: seq<uint8>, st: Stream): (r: seq<uint8>)
    requires |data| >= VideoPayloadHeaderSize - 1
    ensures |r| == |data| && r[VideoPayloadHeaderSize - 1..] == data[VideoPayloadHeaderSize - 1..]
    ensures VideoPayloadHeaderParse(r) ==
      VideoHeader(CodecType(st.codec), st.width % TWO_16, st.height % TWO_16, VideoRate(st).num % TWO_16, VideoRate(st).den % TWO_16)
  {
    var rate := VideoRate(st);
    VideoPayloadHeaderWrite(data, CodecType(st.codec), st.width, st.height, rate.num, rate.den)
  }

  /** `audio_header_fill`: the consumer's parse sees the codec's wire code, the channels modulo 256 and the rates modulo 2^16. */
  function AudioHeaderFill(data: seq<uint8>, st: Stream): (r: seq<uint8>)
    requires |data| >= AudioPayloadHeaderSize - 1
    ensures |r| == |data| && r[AudioPayloadHeaderSize - 1..] == data[AudioPayloadHeaderSize - 1..]
    ensures AudioPayloadHeaderParse(r) ==
      AudioHeader(CodecType(st.codec), Low8(st.channels), st.sampleRate % TWO_16, st.frameSize % TWO_16)
  {
    AudioPayloadHeaderWrite(data, CodecType(st.codec), st.channels, st.sampleRate, st.frameSize)
  }

  /** `header_fill`: stores the stream header in front of the buffer, leaving the frame-count byte and the frames alone. */
  function HeaderFill(data: seq<uint8>, st: Stream): (r: seq<uint8>)
    requires st.mediaType != OtherMedia && |data| >= HeaderSize(st.mediaType) - 1
    ensures r == StreamHeaderBytes(st) + data[HeaderSize(st.mediaType) - 1..]
  {
    if st.mediaType == Video then VideoHeaderFill(data, st) else AudioHeaderFill(data, st)
  }

  /**
   * `get_new_tb`: the time base of the wire timestamps, one frame period for
   * video and one audio frame for audio. The video fallback to `r_frame_rate`
   * is taken when the average rate's denominator is 0.
   */
  function GetNewTb(st: Stream): (tb: Rational)
    requires st.mediaType != OtherMedia
    ensures st.mediaType == Video && st.avgFrameRate.den != 0 ==> tb.num == st.avgFrameRate.den && tb.den == st.avgFrameRate.num
    ensures st.mediaType == Video && st.avgFrameRate.den == 0 ==> tb.num == st.rFrameRate.den && tb.den == st.rFrameRate.num
    ensures st.mediaType == Audio ==> tb.num == st.frameSize && tb.den == st.sampleRate
    ensures st.mediaType == Video && st.avgFrameRate.num != 0 && st.avgFrameRate.den != 0 && st.avgFrameRate.num <= TWO_16 ==>
      tb == Rational(VideoRate(st).den, VideoRate(st).num)
  {
    match st.mediaType
    case Video =>
      var tb := Rational(st.avgFrameRate.den, st.avgFrameRate.num);
      if tb.num == 0 then Rational(st.rFrameRate.den, st.rFrameRate.num) else tb
    case Audio => Rational(st.frameSize, st.sampleRate)
  }

  /**
   * The header rate and the timestamp time base choose their fallback on
   * different fields: with an average rate of 0/1 the header carries
   * `r_frame_rate` while the time base becomes 1/0.
   */
  lemma NewTbFallbackDiffers()
    ensures var st := Stream(Video, H264, 640, 480, 0, 0, 0, Rational(0, 1), Rational(25, 1), Rational(1, 90000));
      VideoRate(st) == Rational(25, 1) && GetNewTb(st) == Rational(1, 0)
  {
  }

  /**
   * The 32-bit pts and dts `frame_header_fill` writes: the packet's timestamp
   * rescaled to the new time base plus the rescaled `base_ts`, kept modulo 2^32
   * by the `int32_t` variables; an unknown pts becomes -1 and an unknown dts 0.
   */
  function FrameTimestamps(pkt: Packet, st: Stream, newTb: Rational, baseTs: int, rescale: Rescale): (r: (int32, int32))
    ensures pkt.pts == NoPtsValue ==> r.0 == -1
    ensures pkt.pts != NoPtsValue ==> (r.0 - (RescaleQ(rescale, pkt.pts, st.timeBase, newTb) + RescaleQ(rescale, baseTs, AvTimeBaseQ, newTb))) % TWO_32 == 0
    ensures pkt.dts == NoPtsValue ==> r.1 == 0
    ensures pkt.dts != NoPtsValue ==> (r.1 - (RescaleQ(rescale, pkt.dts, st.timeBase, newTb) + RescaleQ(rescale, baseTs, AvTimeBaseQ, newTb))) % TWO_32 == 0
  {
    var offset := RescaleQ(rescale, baseTs, AvTimeBaseQ, newTb);
    (if pkt.pts != NoPtsValue then Shift32(RescaleQ(rescale, pkt.pts, st.timeBase, newTb), offset) else -1,
     if pkt.dts != NoPtsValue then Shift32(RescaleQ(rescale, pkt.dts, st.timeBase, newTb), offset) else 0)
  }

  /** `int32_t v = a; v += offset;`: the sum kept modulo 2^32. */
  function Shift32(a: int, offset: int): (v: int32)
    ensures (v - (a + offset)) % TWO_32 == 0
  {
    var low := Wrap32(a);
    var v := Wrap32(low + offset);
    CongruentTrans(v, low + offset, a + offset);
    v
  }

  /** `input_stream_rewind`: the timestamp offset jumps to the last emitted timestamp, whatever the seek returned. */
  function InputStreamRewind(c: Chunkiser, seekResult: int): (r: (Chunkiser, int))
    ensures r.0.baseTs == c.lastTs && r.0.lastTs == c.lastTs && r.1 == seekResult
    ensures SameSetup(c, r.0) && r.0.video == c.video && r.0.audio == c.audio
    ensures Valid(c) ==> Valid(r.0) && SameSetup(c, r.0)
  {
    (c.(baseTs := c.lastTs), seekResult)
  }

  /*
   * The accumulator
   */

  /**
   * The append step of `avf_chunkise`: grow the buffer by one frame header and the
   * payload (allocating room for the stream header on the first frame), store
   * the frame header `fh` that `frame_header_fill` computes at the new tail and
   * copy the payload after it.
   */
  function Append(a: Accumulator, h: nat, fh: seq<uint8>, payload: seq<uint8>): (r: Accumulator)
    requires AccValid(a, h) && |fh| == FrameHeaderSize
    ensures AccValid(r, h) && r.frames == a.frames + 1
    ensures |r.data| == (if a.frames == 0 then h else |a.data|) + FrameHeaderSize + |payload|
  {
    var chunksize := if a.frames == 0 then |payload| + h + FrameHeaderSize else |a.data| + |payload| + FrameHeaderSize;
    var grown := if a.frames == 0 then Zeroes(chunksize) else a.data + Zeroes(|payload| + FrameHeaderSize);
    var pos := chunksize - |payload| - FrameHeaderSize;
    Accumulator(a.frames + 1, Write(Write(grown, pos, fh), pos + FrameHeaderSize, payload))
  }

  /** The accumulator holds the frames `fs` in the producer's interleaved layout after `h` header bytes. */
  predicate Holds(a: Accumulator, h: nat, fs: seq<EncodedFrame>) {
    && a.frames == |fs|
    && HeadersSized(fs)
    && (fs == [] ==> a.data == [])
    && (fs != [] ==> |a.data| >= h && a.data[h..] == Interleave(fs))
  }

  /** The buffer after an append: the old buffer (room for the stream header on the first frame), the frame header, the payload. */
  lemma AppendData(a: Accumulator, h: nat, fh: seq<uint8>, payload: seq<uint8>)
    requires AccValid(a, h) && |fh| == FrameHeaderSize
    ensures Append(a, h, fh, payload).data == (if a.frames == 0 then Zeroes(h) else a.data) + fh + payload
  {
    var chunksize := if a.frames == 0 then |payload| + h + FrameHeaderSize else |a.data| + |payload| + FrameHeaderSize;
    var grown := if a.frames == 0 then Zeroes(chunksize) else a.data + Zeroes(|payload| + FrameHeaderSize);
    var pos := chunksize - |payload| - FrameHeaderSize;
    var withHeader := Write(grown, pos, fh);
    WriteAtEnd(withHeader, pos + FrameHeaderSize, payload);
    if a.frames == 0 {
      assert grown[..pos] == Zeroes(h);
    } else {
      assert grown[..pos] == a.data;
    }
  }

  /** Appending a packet adds one frame, header then payload, at the end of the layout. */
  lemma AppendExtendsLayout(a: Accumulator, h: nat, fs: seq<EncodedFrame>, fh: seq<uint8>, payload: seq<uint8>)
    requires AccValid(a, h) && Holds(a, h, fs) && |fh| == FrameHeaderSize
    ensures Holds(Append(a, h, fh, payload), h, fs + [EncodedFrame(fh, payload)])
  {
    var f := EncodedFrame(fh, payload);
    var r := Append(a, h, fh, payload);
    AppendData(a, h, fh, payload);
    InterleaveSnoc(fs, f);
    var fs' := fs + [f];
    assert HeadersSized(fs') by {
      forall k | 0 <= k < |fs'| ensures |fs'[k].header| == FrameHeaderSize {
        if k < |fs| { assert fs'[k] == fs[k]; }
      }
    }
    if a.frames == 0 {
      assert Interleave(fs') == fh + payload by { assert fs' == [f]; }
      assert r.data[h..] == fh + payload;
    } else {
      assert r.data[h..] == a.data[h..] + fh + payload;
    }
  }

  /**
   * Frame `k` of an accumulated chunk has its header at
   * h + sum over j < k of (8 + size_j) and its payload right after it; the
   * buffer is h + sum over all frames of (8 + size_j) long.
   */
  lemma AccumulatedFrameAt(a: Accumulator, h: nat, fs: seq<EncodedFrame>, k: nat)
    requires Holds(a, h, fs) && k < |fs|
    ensures |a.data| == h + Offset(fs, |fs|)
    ensures h + Offset(fs, k) + FrameHeaderSize + |fs[k].payload| <= |a.data|
    ensures a.data[h + Offset(fs, k)..h + Offset(fs, k) + FrameHeaderSize] == fs[k].header
    ensures a.data[h + Offset(fs, k) + FrameHeaderSize..h + Offset(fs, k) + FrameHeaderSize + |fs[k].payload|] == fs[k].payload
  {
    FrameAt(fs, k);
    var tail := Interleave(fs);
    var o := Offset(fs, k);
    var n := |fs[k].payload|;
    assert fs != [] && a.data[h..] == tail;
    assert |a.data| == h + |tail|;
    SliceOfSuffix(a.data, h, tail, o, o + FrameHeaderSize);
    SliceOfSuffix(a.data, h, tail, o + FrameHeaderSize, o + FrameHeaderSize + n);
  }

  /**
   * The sealing step of `avf_chunkise`: the stream header goes in front and the
   * frame count (modulo 256) into the header's last byte.
   */
  function Seal(a: Accumulator, st: Stream): (chunk: seq<uint8>)
    requires st.mediaType != OtherMedia && AccValid(a, HeaderSize(st.mediaType)) && a.frames > 0
    ensures |chunk| == |a.data|
    ensures chunk == StreamHeaderBytes(st) + [Low8(a.frames)] + a.data[HeaderSize(st.mediaType)..]
  {
    var h := HeaderSize(st.mediaType);
    var filled := HeaderFill(a.data, st);
    var chunk := filled[h - 1 := Low8(a.frames)];
    UpdateAfterPrefix(filled, StreamHeaderBytes(st), a.data, h - 1, Low8(a.frames));
    chunk
  }

  /** A sealed chunk is the stream header, the frame count and the interleaved frames. */
  lemma SealedChunkLayout(a: Accumulator, st: Stream, fs: seq<EncodedFrame>)
    requires st.mediaType != OtherMedia && AccValid(a, HeaderSize(st.mediaType)) && a.frames > 0
    requires Holds(a, HeaderSize(st.mediaType), fs)
    ensures Seal(a, st) == StreamHeaderBytes(st) + [Low8(|fs|)] + Interleave(fs)
  {
  }

  /*
   * avf_chunkise
   */

  /**
   * The accumulating part of `avf_chunkise`, for a packet of a selected audio
   * or video stream: build its frame header from the rescaled timestamps and store it
   * with the packet's data.
   */
  function Accumulate(c: Chunkiser, pkt: Packet, rescale: Rescale): (r: Output)
    requires Valid(c) && pkt.streamIndex in c.selected
    ensures Valid(r.ctx)
    ensures var t := c.streams[pkt.streamIndex].mediaType;
      AccOf(r.ctx, Other(t)) == AccOf(c, Other(t))
    ensures r.chunk.Some? ==> r.size == |r.chunk.value| > 0
    ensures r.chunk.None? ==> r.size == 0
  {
    var st := c.streams[pkt.streamIndex];
    var stamps := FrameTimestamps(pkt, st, GetNewTb(st), c.baseTs, rescale);
    var fh := FrameHeaderBytes(|pkt.data|, stamps.0, stamps.1);
    assert st.mediaType != OtherMedia;
    Store(c, st, fh, pkt.data, RescaleQ(rescale, pkt.dts, st.timeBase, AvTimeBaseQ) + c.baseTs)
  }

  /**
   * The storing step of `avf_chunkise` once the frame header is built: append
   * header and payload to the media type's accumulator, emit the timestamp,
   * and seal the chunk when the count reaches `frames_max`.
   */
  function Store(c: Chunkiser, st: Stream, fh: seq<uint8>, payload: seq<uint8>, ts: int): (r: Output)
    requires Valid(c) && st.mediaType != OtherMedia && |fh| == FrameHeaderSize
    ensures Valid(r.ctx)
    ensures SameSetup(c, r.ctx) && r.ctx.baseTs == c.baseTs
    ensures AccOf(r.ctx, Other(st.mediaType)) == AccOf(c, Other(st.mediaType))
    ensures r.ts == Some(ts) && r.ctx.lastTs == ts
    ensures var t := st.mediaType;
      AccOf(c, t).frames + 1 == FramesMaxOf(c, t) ==>
        && r.chunk.Some? && r.size == |r.chunk.value|
        && r.size == (if AccOf(c, t).frames == 0 then HeaderSize(t) else |AccOf(c, t).data|) + FrameHeaderSize + |payload|
        && r.chunk.value[HeaderSize(t) - 1] == Low8(FramesMaxOf(c, t))
        && AccOf(r.ctx, t) == EmptyAccumulator
    ensures var t := st.mediaType;
      AccOf(c, t).frames + 1 != FramesMaxOf(c, t) ==>
        r.chunk.None? && r.size == 0 && AccOf(r.ctx, t).frames == AccOf(c, t).frames + 1
    ensures r.chunk.Some? ==> r.size == |r.chunk.value| > 0
    ensures r.chunk.None? ==> r.size == 0
  {
    var t := st.mediaType;
    var a := AccOf(c, t);
    var acc := Append(a, HeaderSize(t), fh, payload);
    assert acc.frames == a.frames + 1 && |acc.data| == (if a.frames == 0 then HeaderSize(t) else |a.data|) + FrameHeaderSize + |payload|;
    Emit(c, st, acc, ts)
  }

  /**
   * The emitting step of `avf_chunkise`, once the frame is appended: record the
   * timestamp, and seal and hand out the chunk when `frames_max` is reached,
   * leaving the accumulator empty.
   */
  function Emit(c: Chunkiser, st: Stream, acc: Accumulator, ts: int): (r: Output)
    requires Valid(c) && st.mediaType != OtherMedia
    requires AccValid(acc, HeaderSize(st.mediaType)) && acc.frames > 0
    ensures Valid(r.ctx)
    ensures SameSetup(c, r.ctx) && r.ctx.baseTs == c.baseTs && r.ctx.lastTs == ts && r.ts == Some(ts)
    ensures AccOf(r.ctx, Other(st.mediaType)) == AccOf(c, Other(st.mediaType))
    ensures acc.frames == FramesMaxOf(c, st.mediaType) ==> r.chunk == Some(Seal(acc, st))
    ensures acc.frames == FramesMaxOf(c, st.mediaType) ==>
      && r.chunk.Some? && r.size == |r.chunk.value| == |acc.data|
      && r.chunk.value[HeaderSize(st.mediaType) - 1] == Low8(acc.frames)
      && AccOf(r.ctx, st.mediaType) == EmptyAccumulator
    ensures acc.frames != FramesMaxOf(c, st.mediaType) ==>
      r.chunk.None? && r.size == 0 && AccOf(r.ctx, st.mediaType) == acc
  {
    var t := st.mediaType;
    if acc.frames == FramesMaxOf(c, t) then
      var chunk := Seal(acc, st);
      assert chunk[HeaderSize(t) - 1] == Low8(acc.frames) by {
        assert |StreamHeaderBytes(st)| == HeaderSize(t) - 1;
      }
      Output(WithAcc(c, t, EmptyAccumulator).(lastTs := ts), Some(chunk), |chunk|, Some(ts))
    else
      Output(WithAcc(c, t, acc).(lastTs := ts), None, 0, Some(ts))
  }

  /** The other media type. */
  function Other(t: MediaType): MediaType {
    if t == Video then Audio else Video
  }

  /** The stream table, the selection and the configuration are the same. */
  predicate SameSetup(c: Chunkiser, d: Chunkiser) {
    && d.streams == c.streams && d.selected == c.selected && d.loop == c.loop
    && d.vFramesMax == c.vFramesMax && d.aFramesMax == c.aFramesMax
  }

  /**
   * The bitstream filters `avf_open` installs: `dump_extra` for MPEG-4 and
   * `h264_mp4toannexb` for H.264, none for any other codec.
   */
  predicate HasBitstreamFilter(codec: CodecID): (r: bool)
    ensures r ==> IsVideoCodec(codec)
  {
    codec == Mpeg4 || codec == H264
  }

  /** The codecs `avf_open` gives a filter are exactly those with wire codes 5 (MPEG-4) and 9 (H.264). */
  lemma FilteredCodes(codec: CodecID)
    ensures HasBitstreamFilter(codec) <==> CodecType(codec) == 5 || CodecType(codec) == 9
  {
  }

  /** The payload after the stream's bitstream filter, if it has one; None when the filter fails. */
  function Filtered(st: Stream, data: seq<uint8>, bsf: Filter): (r: Option<seq<uint8>>)
    ensures !HasBitstreamFilter(st.codec) ==> r == Some(data)
    ensures IsAudioCodec(st.codec) ==> r == Some(data)
    ensures HasBitstreamFilter(st.codec) ==> r == bsf(st.codec, data)
  {
    if HasBitstreamFilter(st.codec) then bsf(st.codec, data) else Some(data)
  }

  /**
   * `avf_chunkise`. A read failure with `loop` set rewinds (moving `base_ts` to
   * `last_ts`) and reports size 0 if the seek succeeded; any other read failure
   * reports size -1. A packet of an unselected stream reports size 0 and
   * `last_ts` and changes nothing; a failing bitstream filter reports size 0.
   * A returned chunk is as long as the reported size; no chunk means size 0 or -1.
   */
  function Chunkise(c: Chunkiser, read: ReadResult, seekResult: int, bsf: Filter, rescale: Rescale): (r: Output)
    requires Valid(c)
    ensures Valid(r.ctx) && SameSetup(c, r.ctx)
    ensures r.chunk.Some? ==> r.size == |r.chunk.value| && r.size > 0
    ensures r.chunk.None? ==> r.size == 0 || r.size == -1
    ensures read.ReadFailed? ==> r.chunk.None? && r.ctx == (if c.loop != 0 then c.(baseTs := c.lastTs) else c)
    ensures read.ReadFailed? ==> (r.size == 0 <==> c.loop != 0 && seekResult >= 0)
    ensures read.ReadFailed? && r.size == 0 ==> r.ts == Some(c.lastTs)
    ensures read.ReadOk? && read.pkt.streamIndex !in c.selected ==> r == Output(c, None, 0, Some(c.lastTs))
    ensures read.ReadOk? && read.pkt.streamIndex in c.selected ==>
      var t := c.streams[read.pkt.streamIndex].mediaType;
      AccOf(r.ctx, Other(t)) == AccOf(c, Other(t))
    ensures read.ReadOk? && read.pkt.streamIndex in c.selected ==>
      var st := c.streams[read.pkt.streamIndex];
      Filtered(st, read.pkt.data, bsf).None? ==> r == Output(c, None, 0, None)
  {
    match read
    case ReadFailed(_) =>
      if c.loop != 0 then
        var rewound := InputStreamRewind(c, seekResult);
        if rewound.1 >= 0 then Output(rewound.0, None, 0, Some(rewound.0.lastTs))
        else Output(rewound.0, None, -1, None)
      else Output(c, None, -1, None)
    case ReadOk(pkt) =>
      if pkt.streamIndex !in c.selected then Output(c, None, 0, Some(c.lastTs))
      else
        var st := c.streams[pkt.streamIndex];
        match Filtered(st, pkt.data, bsf)
        case None => Output(c, None, 0, None)
        case Some(data) => Accumulate(c, pkt.(data := data), rescale)
  }

  /**
   * A packet of a selected stream that passes its bitstream filter keeps
   * `base_ts`; the returned timestamp is the dts rescaled to microseconds plus
   * `base_ts`, and becomes `last_ts`.
   */
  lemma ChunkiseTimestamp(c: Chunkiser, pkt: Packet, seekResult: int, bsf: Filter, rescale: Rescale)
    requires Valid(c) && pkt.streamIndex in c.selected
    requires Filtered(c.streams[pkt.streamIndex], pkt.data, bsf).Some?
    ensures var r := Chunkise(c, ReadOk(pkt), seekResult, bsf, rescale);
      && r.ctx.baseTs == c.baseTs
      && r.ts == Some(RescaleQ(rescale, pkt.dts, c.streams[pkt.streamIndex].timeBase, AvTimeBaseQ) + c.baseTs)
      && r.ctx.lastTs == r.ts.value
  {
    var p := pkt.(data := Filtered(c.streams[pkt.streamIndex], pkt.data, bsf).value);
    var st := c.streams[pkt.streamIndex];
    var stamps := FrameTimestamps(p, st, GetNewTb(st), c.baseTs, rescale);
    var fh := FrameHeaderBytes(|p.data|, stamps.0, stamps.1);
    var ts := RescaleQ(rescale, pkt.dts, st.timeBase, AvTimeBaseQ) + c.baseTs;
    var stored := Store(c, st, fh, p.data, ts);
    assert stored.ctx.baseTs == c.baseTs && stored.ts == Some(ts) && stored.ctx.lastTs == ts;
    ChunkiseFilters(c, pkt, seekResult, bsf, rescale, p);
    AccumulateStores(c, p, rescale, st, fh, ts);
  }

  /**
   * The filtered packet that brings its media type's accumulator to
   * `frames_max` seals it into a chunk whose stream header ends with the frame
   * count, and empties the accumulator.
   */
  lemma ChunkiseSeals(c: Chunkiser, pkt: Packet, seekResult: int, bsf: Filter, rescale: Rescale)
    requires Valid(c) && pkt.streamIndex in c.selected
    requires Filtered(c.streams[pkt.streamIndex], pkt.data, bsf).Some?
    requires var t := c.streams[pkt.streamIndex].mediaType; AccOf(c, t).frames + 1 == FramesMaxOf(c, t)
    ensures var r := Chunkise(c, ReadOk(pkt), seekResult, bsf, rescale);
      var t := c.streams[pkt.streamIndex].mediaType;
      && r.chunk.Some? && |r.chunk.value| > HeaderSize(t) && r.chunk.value[HeaderSize(t) - 1] == Low8(FramesMaxOf(c, t))
      && AccOf(r.ctx, t) == EmptyAccumulator
  {
    var p := pkt.(data := Filtered(c.streams[pkt.streamIndex], pkt.data, bsf).value);
    ChunkiseFilters(c, pkt, seekResult, bsf, rescale, p);
    var st := c.streams[pkt.streamIndex];
    var stamps := FrameTimestamps(p, st, GetNewTb(st), c.baseTs, rescale);
    var fh := FrameHeaderBytes(|p.data|, stamps.0, stamps.1);
    AccumulateStores(c, p, rescale, st, fh, RescaleQ(rescale, pkt.dts, st.timeBase, AvTimeBaseQ) + c.baseTs);
  }

  /**
   * A filtered packet that leaves its media type's accumulator below
   * `frames_max` returns no chunk and size 0 and adds one frame to the count.
   */
  lemma ChunkiseCounts(c: Chunkiser, pkt: Packet, seekResult: int, bsf: Filter, rescale: Rescale)
    requires Valid(c) && pkt.streamIndex in c.selected
    requires Filtered(c.streams[pkt.streamIndex], pkt.data, bsf).Some?
    requires var t := c.streams[pkt.streamIndex].mediaType; AccOf(c, t).frames + 1 != FramesMaxOf(c, t)
    ensures var r := Chunkise(c, ReadOk(pkt), seekResult, bsf, rescale);
      var t := c.streams[pkt.streamIndex].mediaType;
      r.chunk.None? && r.size == 0 && AccOf(r.ctx, t).frames == AccOf(c, t).frames + 1
  {
    var p := pkt.(data := Filtered(c.streams[pkt.streamIndex], pkt.data, bsf).value);
    ChunkiseFilters(c, pkt, seekResult, bsf, rescale, p);
    var st := c.streams[pkt.streamIndex];
    var stamps := FrameTimestamps(p, st, GetNewTb(st), c.baseTs, rescale);
    var fh := FrameHeaderBytes(|p.data|, stamps.0, stamps.1);
    AccumulateStores(c, p, rescale, st, fh, RescaleQ(rescale, pkt.dts, st.timeBase, AvTimeBaseQ) + c.baseTs);
  }

  /** A filtered packet of a selected stream goes to `Accumulate` with the filtered payload. */
  lemma ChunkiseFilters(c: Chunkiser, pkt: Packet, seekResult: int, bsf: Filter, rescale: Rescale, p: Packet)
    requires Valid(c) && pkt.streamIndex in c.selected
    requires Filtered(c.streams[pkt.streamIndex], pkt.data, bsf).Some?
    requires p == pkt.(data := Filtered(c.streams[pkt.streamIndex], pkt.data, bsf).value)
    ensures p.streamIndex == pkt.streamIndex && p.dts == pkt.dts && p.pts == pkt.pts
    ensures Chunkise(c, ReadOk(pkt), seekResult, bsf, rescale) == Accumulate(c, p, rescale)
  {
  }

  /**
   * With `frames_max` = 1 and an empty accumulator, a packet of a selected stream
   * comes out at once as the stream header, a count of 1, the frame header and
   * the payload.
   */
  lemma OneFrameChunk(c: Chunkiser, pkt: Packet, rescale: Rescale)
    requires Valid(c) && pkt.streamIndex in c.selected
    requires var t := c.streams[pkt.streamIndex].mediaType; AccOf(c, t).frames == 0 && FramesMaxOf(c, t) == 1
    ensures var st := c.streams[pkt.streamIndex];
      var stamps := FrameTimestamps(pkt, st, GetNewTb(st), c.baseTs, rescale);
      Accumulate(c, pkt, rescale).chunk ==
        Some(StreamHeaderBytes(st) + [1] + FrameHeaderBytes(|pkt.data|, stamps.0, stamps.1) + pkt.data)
  {
    var st := c.streams[pkt.streamIndex];
    var stamps := FrameTimestamps(pkt, st, GetNewTb(st), c.baseTs, rescale);
    var fh := FrameHeaderBytes(|pkt.data|, stamps.0, stamps.1);
    var ts := RescaleQ(rescale, pkt.dts, st.timeBase, AvTimeBaseQ) + c.baseTs;
    AccumulateStores(c, pkt, rescale, st, fh, ts);
    StoreOneFrame(c, st, fh, pkt.data, ts);
  }

  /** `avf_chunkise` stores the packet with its frame header and rescaled dts. */
  lemma AccumulateStores(c: Chunkiser, pkt: Packet, rescale: Rescale, st: Stream, fh: seq<uint8>, ts: int)
    requires Valid(c) && pkt.streamIndex in c.selected && st == c.streams[pkt.streamIndex]
    requires var stamps := FrameTimestamps(pkt, st, GetNewTb(st), c.baseTs, rescale);
      fh == FrameHeaderBytes(|pkt.data|, stamps.0, stamps.1)
    requires ts == RescaleQ(rescale, pkt.dts, st.timeBase, AvTimeBaseQ) + c.baseTs
    ensures st.mediaType != OtherMedia && |fh| == FrameHeaderSize
    ensures Accumulate(c, pkt, rescale) == Store(c, st, fh, pkt.data, ts)
  {
  }

  /** Storing a frame into an empty accumulator with `frames_max` = 1 seals it at once. */
  lemma StoreOneFrame(c: Chunkiser, st: Stream, fh: seq<uint8>, payload: seq<uint8>, ts: int)
    requires Valid(c) && st.mediaType != OtherMedia && |fh| == FrameHeaderSize
    requires AccOf(c, st.mediaType).frames == 0 && FramesMaxOf(c, st.mediaType) == 1
    ensures Store(c, st, fh, payload, ts).chunk == Some(StreamHeaderBytes(st) + [1] + fh + payload)
  {
    var acc := Append(EmptyAccumulator, HeaderSize(st.mediaType), fh, payload);
    OneFrameSeal(st, fh, payload);
    assert Store(c, st, fh, payload, ts) == Emit(c, st, acc, ts);
  }

  /** Sealing a single appended frame gives the stream header, a count of 1, the frame header and the payload. */
  lemma OneFrameSeal(st: Stream, fh: seq<uint8>, payload: seq<uint8>)
    requires st.mediaType != OtherMedia && |fh| == FrameHeaderSize
    ensures Seal(Append(EmptyAccumulator, HeaderSize(st.mediaType), fh, payload), st)
      == StreamHeaderBytes(st) + [1] + fh + payload
  {
    var h := HeaderSize(st.mediaType);
    var a := Append(EmptyAccumulator, h, fh, payload);
    AppendData(EmptyAccumulator, h, fh, payload);
    assert a.data == Zeroes(h) + (fh + payload);
    SealFirstFrame(a, st, fh + payload);
  }

  /** Sealing a buffer of one frame laid after the zeroed header room. */
  lemma SealFirstFrame(a: Accumulator, st: Stream, rest: seq<uint8>)
    requires st.mediaType != OtherMedia && a.frames == 1 && |rest| >= FrameHeaderSize
    requires a.data == Zeroes(HeaderSize(st.mediaType)) + rest
    ensures Seal(a, st) == StreamHeaderBytes(st) + [1] + rest
  {
    assert a.data[HeaderSize(st.mediaType)..] == rest;
  }


  /**
   * `avf_chunkise` keeps the accumulated frames in the interleaved layout: below
   * `frames_max` the accumulator holds the old frames plus the new one; at
   * `frames_max` the chunk is the stream header, the frame count and every
   * frame, header then payload, in arrival order.
   */
  lemma StoreKeepsLayout(c: Chunkiser, st: Stream, fh: seq<uint8>, payload: seq<uint8>, ts: int, fs: seq<EncodedFrame>)
    requires Valid(c) && st.mediaType != OtherMedia && |fh| == FrameHeaderSize
    requires Holds(AccOf(c, st.mediaType), HeaderSize(st.mediaType), fs)
    ensures var t := st.mediaType;
      var fs' := fs + [EncodedFrame(fh, payload)];
      var r := Store(c, st, fh, payload, ts);
      && (|fs'| != FramesMaxOf(c, t) ==> Holds(AccOf(r.ctx, t), HeaderSize(t), fs'))
      && (|fs'| == FramesMaxOf(c, t) ==> r.chunk == Some(StreamHeaderBytes(st) + [Low8(|fs'|)] + Interleave(fs')))
  {
    var t := st.mediaType;
    var h := HeaderSize(t);
    var fs' := fs + [EncodedFrame(fh, payload)];
    var acc := Append(AccOf(c, t), h, fh, payload);
    AppendExtendsLayout(AccOf(c, t), h, fs, fh, payload);
    assert Store(c, st, fh, payload, ts) == Emit(c, st, acc, ts);
    if |fs'| == FramesMaxOf(c, t) {
      SealedChunkLayout(acc, st, fs');
    }
  }

  /**
   * After a read failure with `loop` set and a successful seek, the context is
   * the old one with `base_ts` moved to `last_ts`, and the next packet's
   * timestamp continues from the last one emitted before the rewind: its
   * rescaled dts plus the old `last_ts`.
   */
  lemma RewindContinuesTimestamps(c: Chunkiser, code: int, seekResult: int, pkt: Packet, bsf: Filter, rescale: Rescale)
    requires Valid(c) && c.loop != 0 && seekResult >= 0 && pkt.streamIndex in c.selected
    requires Filtered(c.streams[pkt.streamIndex], pkt.data, bsf).Some?
    ensures Chunkise(c, ReadFailed(code), seekResult, bsf, rescale) == Output(c.(baseTs := c.lastTs), None, 0, Some(c.lastTs))
    ensures var st := c.streams[pkt.streamIndex];
      Chunkise(c.(baseTs := c.lastTs), ReadOk(pkt), seekResult, bsf, rescale).ts == Some(RescaleQ(rescale, pkt.dts, st.timeBase, AvTimeBaseQ) + c.lastTs)
  {
    RewoundTimestamp(c, c.(baseTs := c.lastTs), pkt, seekResult, bsf, rescale);
  }

  /** A packet read after the rewind is stamped relative to the new `base_ts`, the old `last_ts`. */
  lemma RewoundTimestamp(c: Chunkiser, c1: Chunkiser, pkt: Packet, seekResult: int, bsf: Filter, rescale: Rescale)
    requires Valid(c) && pkt.streamIndex in c.selected && c1 == c.(baseTs := c.lastTs)
    requires Filtered(c.streams[pkt.streamIndex], pkt.data, bsf).Some?
    ensures var st := c.streams[pkt.streamIndex];
      Chunkise(c1, ReadOk(pkt), seekResult, bsf, rescale).ts == Some(RescaleQ(rescale, pkt.dts, st.timeBase, AvTimeBaseQ) + c.lastTs)
  {
    assert Valid(c1) && c1.selected == c.selected && c1.streams == c.streams && c1.baseTs == c.lastTs;
    var p := pkt.(data := Filtered(c.streams[pkt.streamIndex], pkt.data, bsf).value);
    var st := c.streams[pkt.streamIndex];
    var stamps := FrameTimestamps(p, st, GetNewTb(st), c1.baseTs, rescale);
    var fh := FrameHeaderBytes(|p.data|, stamps.0, stamps.1);
    var ts := RescaleQ(rescale, pkt.dts, st.timeBase, AvTimeBaseQ) + c.lastTs;
    var stored := Store(c1, st, fh, p.data, ts);
    assert stored.ts == Some(ts);
    ChunkiseFilters(c1, pkt, seekResult, bsf, rescale, p);
    AccumulateStores(c1, p, rescale, st, fh, ts);
  }
}

=== FILE: timestamps.dfy ===
/**
 * The 32-bit timestamp extension of `play_write`: the frame header carries
 * the low 32 bits of the dts (and a pts close above it); the consumer rebuilds
 * a 64-bit value from the previous one it produced. The rule compares the
 * truncated value with the whole previous value, so it only tracks the
 * stream up to the first wrap.
 */
module Timestamps {
  import opened Bytes

  /** The lateness beyond which a smaller value is taken as a wrap: 2^31 - 1. */
  const WrapThreshold: int := TWO_31 - 1

  /**
   * `v += (v < prev - (2^31 - 1)) ? ((prev >> 32) + 1) << 32 : (prev >> 32) << 32`.
   * The arithmetic shift right of a 64-bit value is floor division, which is
   * what Dafny's `/` does for a positive divisor.
   */
  function Extend(v: int, prev: int): (r: int)
    ensures v < prev - WrapThreshold ==> r - v == (prev / TWO_32 + 1) * TWO_32
    ensures v >= prev - WrapThreshold ==> r - v == (prev / TWO_32) * TWO_32
    ensures (r - v) % TWO_32 == 0
  {
    var epoch := if v < prev - WrapThreshold then prev / TWO_32 + 1 else prev / TWO_32;
    v + epoch * TWO_32
  }

  /** The extension only ever adds whole multiples of 2^32, so the low 32 bits stay. */
  lemma ExtendKeepsLowBits(v: int, prev: int)
    requires 0 <= v < TWO_32
    ensures Extend(v, prev) % TWO_32 == v
  {
    var r := Extend(v, prev);
    var k := (r - v) / TWO_32;
    assert r == v + k * TWO_32;
  }

  /** With a non-negative previous value the extended value is at least the wire value. */
  lemma ExtendNonNegative(v: int, prev: int)
    requires 0 <= v && 0 <= prev
    ensures Extend(v, prev) >= v
  {
  }

  /**
   * Before the first wrap (0 <= prev < 2^32), a true timestamp that is never
   * more than 2^31 - 1 away from the previous one is recovered exactly from
   * its low 32 bits, whether or not it has crossed 2^32.
   */
  lemma ExtendRecovers(t: int, prev: int)
    requires 0 <= prev < TWO_32 && 0 <= t
    requires prev - WrapThreshold <= t <= prev + WrapThreshold
    ensures Extend(t % TWO_32, prev) == t
  {
    assert prev / TWO_32 == 0;
    if t >= TWO_32 {
      assert t % TWO_32 == t - TWO_32;
    } else {
      assert t % TWO_32 == t;
    }
  }

  /** Before the first wrap, a value taken as wrapped comes out above the previous one. */
  lemma WrapIncreases(v: int, prev: int)
    requires prev < TWO_32 && 0 <= v < TWO_32
    requires v < prev - WrapThreshold
    ensures Extend(v, prev) > prev
  {
    assert prev / TWO_32 == 0;
  }

  /**
   * After the first wrap the rule overshoots: with prev = 2^32 + 5, the next
   * true value 2^32 + 10 arrives as 10, which lies more than 2^31 - 1 below
   * prev, so a second epoch is added and 2^33 + 10 comes out.
   */
  lemma OvershootAfterWrap()
    ensures (TWO_32 + 10) % TWO_32 == 10
    ensures Extend(10, TWO_32 + 5) == 2 * TWO_32 + 10
  {
  }

  /**
   * The overshoot in general: once the history has passed 2^32, a true value
   * at or a little above the previous one, in the same epoch, comes back one
   * epoch too high.
   */
  lemma OvershootsByOneEpoch(t: int, prev: int)
    requires prev >= TWO_32 && prev <= t <= prev + WrapThreshold
    requires t / TWO_32 == prev / TWO_32
    ensures Extend(t % TWO_32, prev) == t + TWO_32
  {
    assert t % TWO_32 == t - (prev / TWO_32) * TWO_32;
  }
}

=== FILE: wrappers.dfy ===
/** Optional values, used for the C code's "maybe absent" results (NULL pointers, unset out-parameters). */
module Wrappers {

  datatype Option<+T> = None | Some(value: T) {

    /** Returns the value held in Some, or `default` when None */
    function GetOr(default: T): T {
      match this
      case Some(v) => v
      case None => default
    }
  }
}
